=== FILE: README.md ===
# Verisure GraphQL client — session, failover, discovery and reshaping, in Dafny

This project models the core of a Python client for Verisure's home-alarm
GraphQL API. The client comes in two versions: a blocking one
(`verisureGrafqlAPI.py`) and an async one (`verisureGrafqlAPI_async.py`).
The model covers three parts:

- **Endpoint failover** in the blocking client. `_doRequest`, `login`,
  `renewToken` and `logout` each try the primary host (endpoint 0) first and
  may fall back to the secondary host (endpoint 1). Some fall back when the
  reply holds an `errors` key, others only when the first attempt raises.
- **Installation discovery** (`getAllInstallations`) in both clients. The
  async client also has the lazy `giid is None` guard in front of every
  installation query, and its memoised singleton `create`.
- **Response reshaping**: the loops that turn a decoded reply into the
  dictionary or list handed back. These are the loops of `getEventLog`,
  `getCommunication`, `getDoorWindow`, `read_smartplug_state`, `getDevices`
  and `userTracking`.

Each operation is a pure function. It returns the new client state, whether
an exception escaped, and the trace of calls it made.

The network is a parameter, `Net`. Given every call made so far, it answers
the last one with `Raised` or `Reply(payload)`, where the payload is the
decoded JSON. The model makes the following choices:

- Python's `'errors' in reply` is modelled for every JSON shape: a key test on
  a dict, an element test on a list, a substring test on a string. On null,
  bools and numbers it raises TypeError.
- Python `None` for `giid` and `username` is `JNull`.
- A `for d in x` loop over anything but a list raises, except over an empty
  dict or string.
- Dictionary keys must be hashable: a list or a dict as key raises.
- Two things are left uninterpreted parameters: timestamp formatting with
  arrow (`TimeFormat`), and Python's `str()` of a non-string inside an
  f-string (`Render`).

Modules, one per file:

- `Wrappers` (`wrappers.dfy`): `Option`.
- `JsonModel` (`json.dfy`): decoded JSON and the Python operations applied
  to it.
- `Wire` (`wire.dfy`): calls, outcomes, the network oracle and counters over
  traces.
- `Grouping` (`grouping.dfy`): the group-by and key-by loops, with
  reference definitions.
- `Discovery` (`discovery.dfy`): the installation loop.
- `SyncClient` (`sync_client.dfy`): the blocking client.
- `Reshape` (`reshape.dfy`): the reshaping loops.
- `AsyncClient` (`async_client.dfy`): the async client.

The model follows the code as written. In particular:

- There is no token-expiry tracking and no proactive renewal.
  `renewToken` is a plain call with failover.
- `logout` does not clear anything. The blocking client's logout uses
  `auth/delete`.
- Login never clears or sets an "authenticated" flag; only `username` and
  the discovered `giid` change.
- MFA login POSTs both login URLs whatever the first reply says, and nothing
  is caught.
- Non-MFA login falls back to endpoint 1 only on an exception, not on an
  `errors` reply. An exception raised by discovery after a clean login reply
  also counts.
- The `{}` returned after a total request failure is not short-circuited.
  Every reshaping loop, and discovery, then raises KeyError on it
  (`Reshape.EmptyReplyRaises`, `Discovery.EmptyReplyRaises`).

## Model

| member | source | states |
|---|---|---|
| JsonModel.ErrorsIn | verisureGrafqlAPI.py:188 | On a dict reply the `errors` test is exactly key membership; it raises exactly on null, bools and numbers |
| SyncClient.DoRequest | verisureGrafqlAPI.py:177-205 | At most two attempts, primary first, with the identical body. The secondary is contacted exactly when the primary's reply carries `errors`. The result is the last reply if it is free of `errors`, otherwise `{}`; an exception never escapes |
| Discovery.AssignGiids | verisureGrafqlAPI.py:218-219 | The loop completes exactly when every installation has a `giid`. It then leaves the last installation's giid active, or the old one when the list is empty. On a raise, the giid is the one before the first installation without a `giid` |
| Discovery.Apply | verisureGrafqlAPI_async.py:95-96 | A reply without the installations list raises and leaves the giid alone. Otherwise the result is the loop's, as for `AssignGiids` |
| Discovery.EmptyReplyRaises | verisureGrafqlAPI.py:201-219 | Discovery on the `{}` of a failed request raises and changes nothing |
| SyncClient.Discover | verisureGrafqlAPI.py:207-221 | Its calls are exactly those of `_doRequest` for the discovery query: the primary host once, the secondary only after an `errors` reply. If no clean reply came back, discovery raises and leaves the client unchanged. After a clean reply it returns exactly when the installation loop completes, and the giid the loop reached is kept either way. On success every installation has a giid and the last one is active |
| SyncClient.LoginAttempt | verisureGrafqlAPI.py:89-98 | One login POST, then discovery exactly when the reply is free of `errors`. An `errors` reply is not an exception and changes nothing; a raised POST, or a null, bool or number reply (TypeError on the `in` test), raises and changes nothing. After a clean reply the attempt raises exactly when discovery does, and leaves discovery's client. Discovery runs once per clean login reply |
| SyncClient.LoginPlain | verisureGrafqlAPI.py:89-111 | Endpoint 1 is tried exactly when the endpoint-0 attempt raised. An endpoint-0 attempt that returned is the login, with the giid its discovery left; after an exception the retry starts from the client the first attempt left and the login ends with the retry's client. An `errors` reply from endpoint 0 causes neither fallback nor discovery. Nothing escapes, and discovery runs once per clean login reply |
| SyncClient.LoginMfa | verisureGrafqlAPI.py:83-88 | Both login URLs are POSTed in order whenever the endpoint-0 attempt returns, whatever its reply said, and the login then ends as the endpoint-1 attempt does. An exception at endpoint 0 ends the login and escapes before endpoint 1. Discovery runs once per clean reply, so at most twice |
| SyncClient.Login | verisureGrafqlAPI.py:68-111 | Records the username, then runs the MFA policy exactly when `mfa` is set and the plain policy otherwise. Without MFA nothing escapes. One or two login POSTs, endpoint 0 first. Discovery runs once per clean login reply |
| SyncClient.FailoverOnRaise | verisureGrafqlAPI.py:147-175 | Endpoint 1 is called exactly when endpoint 0 raised; never more than two calls |
| SyncClient.RenewToken | verisureGrafqlAPI.py:147-160 | Token renewal tries `auth/token` on endpoint 1 only when endpoint 0 raised. It never raises and changes no client state |
| SyncClient.Logout | verisureGrafqlAPI.py:162-175 | Logout tries `auth/delete` on endpoint 1 only when endpoint 0 raised. It never raises and leaves the state as it was, so a second logout behaves the same |
| Grouping.GroupBy | verisureGrafqlAPI_async.py:359-370 | The grouped map's keys are exactly the keys met. Each key's list is the input's values with that key, in input order |
| Grouping.GroupByPlacement | verisureGrafqlAPI.py:407-420 | Every entry sits in its key's group at its rank among earlier entries with the same key |
| Grouping.RankOrder | verisureGrafqlAPI.py:407-420 | Within one group, earlier entries come first |
| Grouping.GroupByTotal | verisureGrafqlAPI.py:407-420 | The groups hold exactly as many values as there were entries: nothing lost or duplicated |
| Grouping.KeyBy | verisureGrafqlAPI_async.py:1476-1478 | The keyed map's keys are exactly the keys met |
| Grouping.KeyByLast | verisureGrafqlAPI_async.py:1476-1478 | A key's value is that of its last entry: later entries overwrite earlier ones |
| Grouping.KeyByValues | verisureGrafqlAPI_async.py:1476-1478 | Every key's value is that of its own last entry, so no value comes from anywhere else |
| Reshape.Collect | verisureGrafqlAPI_async.py:770-773 | A loop over a list succeeds exactly when every element does. The output then has the same length and order, element by element |
| Reshape.GroupedAt | verisureGrafqlAPI_async.py:359-372 | A grouping loop over a reply succeeds exactly when the list is present and every element parses. The keys are then the keys met, every element is placed once at its rank, and the total count is preserved |
| Reshape.KeyedAt | verisureGrafqlAPI_async.py:1475-1480 | A keying loop over a reply succeeds exactly when the list is present and every element parses. The keys are then the keys met, each key holds its last element's value, and every value in the map is some key's last element's |
| Reshape.EventEntry | verisureGrafqlAPI_async.py:463-476 | An event line parses exactly when it has a hashable `eventCategory`, a device area and an `eventTime` that converts, plus `userName` and `armState` for ARM and DISARM, and `armState` for INTRUSION in the async client. `user` is present exactly for ARM and DISARM; `armState` for those and, in the async client, INTRUSION. Both are copied from the event |
| Reshape.EventLog | verisureGrafqlAPI.py:405-422 | Event lines grouped by category: every line appears once, under its category, in input order, with the total count preserved |
| Reshape.CommEntry | verisureGrafqlAPI.py:354-366 | A communication test parses exactly when its device area is present and hashable, `result`, `hardwareCarrierType` and `mediaType` are present, and its `testDate` converts. It is keyed by that area and carries those fields and the formatted date |
| Reshape.Communication | verisureGrafqlAPI_async.py:359-372 | The output keys are exactly the distinct device areas. Each area lists its own tests in input order, none lost |
| Reshape.DoorWindowEntry | verisureGrafqlAPI.py:700-705 | A door or window sensor parses exactly when its `area` is present and hashable, `state` is present, and `reportTime` converts. It is keyed by that area and carries its state and formatted report time |
| Reshape.DoorWindows | verisureGrafqlAPI.py:698-705 | One state per distinct area: the last sensor listed for an area wins, and every state comes from such a last sensor |
| Reshape.SmartplugEntry | verisureGrafqlAPI_async.py:1477-1478 | A smart plug parses exactly when its device area is present and hashable and it has a `currentState` |
| Reshape.SmartplugStates | verisureGrafqlAPI_async.py:1475-1480 | The output keys are exactly the distinct areas. For a duplicated area the last plug's `currentState` wins, and every state comes from such a last plug |
| Reshape.TrackingEntry | verisureGrafqlAPI_async.py:235-242 | A user parses exactly when its `name` is present and hashable, `currentLocationName` is present, and a non-null location comes with a `currentLocationTimestamp` that converts. A null location is shown as `"None"` at `1970-01-01 00:00:00`, without reading the location timestamp. Otherwise the location name is copied through and its timestamp formatted |
| Reshape.UserTrackings | verisureGrafqlAPI_async.py:233-244 | One entry per distinct user name; the last listed wins, and every entry comes from such a last listing |
| Reshape.Text | verisureGrafqlAPI_async.py:773 | A string field is inserted into the f-string as is |
| Reshape.DeviceName | verisureGrafqlAPI_async.py:771-773 | A device parses exactly when `gui.label` and `area` are present. Its name is `area + "/" + label` |
| Reshape.DeviceNames | verisureGrafqlAPI_async.py:769-778 | One name per device, with the same length and order as the input. Each name is `area + "/" + gui.label`, plain concatenation when both are strings |
| Reshape.EmptyReplyRaises | verisureGrafqlAPI.py:201-205 | Every reshaping loop raises on the `{}` of a failed request |
| AsyncClient.GetAllInstallations | verisureGrafqlAPI_async.py:63-96 | Without a handler it raises before any request. Otherwise it sends one discovery query. A raised request changes nothing. After a reply it returns exactly when the installation loop completes, and the giid the loop reached is kept either way. On success every installation has a giid and the last one is active |
| AsyncClient.EnsureGiid | verisureGrafqlAPI_async.py:99-100 | With a giid set there is no request and no change. With none set, discovery runs: without a handler it raises at once; a raised discovery request raises and leaves the instance alone; after a reply the guard returns exactly when the installation loop completes, leaving the giid the loop reached. On return the giid is the last installation's, or still None when none is listed |
| AsyncClient.Query | verisureGrafqlAPI_async.py:1445-1473 | The guard comes first: with giid None, discovery is the first request. A guard that raised, or a missing handler, ends the query with no further request. A guard that returned is followed by exactly one request, carrying the giid the guard left, and a reply to it yields the reshaped payload; a raised request yields nothing. With a giid set the instance is untouched |
| AsyncClient.GetEventLog | verisureGrafqlAPI_async.py:397-478 | The event-log query follows the guard rule: discovery first when giid is None; a guard that raised, or a missing handler, ends it with no further request; otherwise exactly one query carrying the giid in force, whose reply yields the grouped event log with INTRUSION arm states |
| AsyncClient.GetCommunication | verisureGrafqlAPI_async.py:323-372 | Corrected version, see Findings. Follows the guard rule: discovery first when giid is None; a guard that raised, or a missing handler, ends it with no further request; otherwise exactly one query carrying the giid in force, whose reply yields the tests grouped by area |
| AsyncClient.GetDevices | verisureGrafqlAPI_async.py:725-778 | The devices query follows the guard rule: discovery first when giid is None; a guard that raised, or a missing handler, ends it with no further request; otherwise exactly one query carrying the giid in force, whose reply yields the list of device names |
| AsyncClient.ReadSmartplugState | verisureGrafqlAPI_async.py:1444-1480 | The smart-plug query follows the guard rule: discovery first when giid is None; a guard that raised, or a missing handler, ends it with no further request; otherwise exactly one query carrying the giid in force, whose reply yields one state per area |
| AsyncClient.UserTracking | verisureGrafqlAPI_async.py:199-244 | The user-tracking query follows the guard rule: discovery first when giid is None; a guard that raised, or a missing handler, ends it with no further request; otherwise exactly one query carrying the giid in force, whose reply yields one location per user |
| AsyncClient.Finish | verisureGrafqlAPI_async.py:54-55 | With a handler, `create` ends with one discovery request on the singleton and returns it exactly when discovery returned. Without a handler it returns None and changes nothing |
| AsyncClient.CreateAsWritten | verisureGrafqlAPI_async.py:30-58 | See Findings. An existing singleton is returned with its first username, and later credentials are ignored; with its handler, the call is one discovery and returns the singleton exactly when discovery completes. The handler is built at most on the very first call. A first build that returns a handler is followed by discovery on the fresh instance. A first build that raises or returns None sends nothing more: it leaves the fresh instance, with giid None, without handler, and from there every call returns None and changes nothing. With no singleton but a handler already there, the call is one discovery on the fresh instance |
| AsyncClient.CreateCorrected | verisureGrafqlAPI_async.py:30-58 | The handler is built exactly when it is missing. Afterwards it is present exactly when it already was or the build returned a handler (not None). A build that raises or returns None makes the call return None and leaves only the singleton set (the existing one, or a fresh one with the new username); otherwise the call is one discovery on the singleton and returns it exactly when discovery completes |
| AsyncClient.SeriesKeepsSingleton | verisureGrafqlAPI_async.py:32-56 | Once the singleton exists, every later `create` returns it with its original username |
| AsyncClient.FirstCallerOwnsSingleton | verisureGrafqlAPI_async.py:30-56 | From the initial state, every instance `create` returns carries the first caller's username |
| AsyncClient.AsWrittenBuildsOnce | verisureGrafqlAPI_async.py:32-35 | Over any series of `create` calls the handler is built at most once, and never once the singleton exists |
| AsyncClient.AsWrittenPoisonPersists | verisureGrafqlAPI_async.py:32-58 | A singleton without handler stays that way, and every later `create` returns None |
| AsyncClient.CorrectedHandlerStays | verisureGrafqlAPI_async.py:30-58 | With the corrected `create`, a built handler stays and is never built again |
| AsyncClient.CorrectedRecovers | verisureGrafqlAPI_async.py:30-58 | With the corrected `create`, a singleton without handler is retried on every call: after k calls whose build raises or returns None (each call returning None) and one whose build returns a handler, the handler is there and was built k + 1 times |
| AsyncClient.GetCommunicationAsWritten | verisureGrafqlAPI_async.py:323-357 | See Findings. With a giid set it raises before any request. Otherwise it behaves like the corrected version |
| AsyncClient.CommunicationDiscrepancy | verisureGrafqlAPI_async.py:323-357 | With the installation already discovered and no tests recorded, the corrected query returns `{}` and the as-written one raises |
| AsyncClient.RecoveryOnUp | verisureGrafqlAPI_async.py:30-58 | The corrected `create`, called on a singleton without handler against a healthy service, returns the singleton with its installation discovered |
| AsyncClient.CreateDiscrepancy | verisureGrafqlAPI_async.py:30-58 | A failed first handler build followed by a healthy service: as written the second `create` still returns None; corrected, it returns the discovered singleton |

## Left out

- HTTP transport: the `requests` and `aiohttp` sessions, urllib3 `Retry`, the
  timeout adapter and the status hook. Only their effect is kept: a call
  raises or replies, and the status hook's exceptions are among the
  `Raised` outcomes.
- The async handler `APIVerisure.doSession` and `APIVerisure.create`. Their
  source is not part of this model. Each is one oracle call: `Session(body)`
  and `BuildHandler`.
- `getMfaToken`, the MFA cookie file read in `login`, and the async
  `logout`. The first two are interactive input and pickle file I/O. The
  async logout only delegates to the handler.
- Timestamp and date formatting with arrow. Timestamps go through the
  uninterpreted `TimeFormat`. The async event-log dates arrive already
  formatted as `fromText`/`toText`, so the model cannot show that
  `arrow.get(fromDate)` or `arrow.get(toDate)` raising (lines 410-411 of
  `verisureGrafqlAPI_async.py`) ends `getEventLog` after the guard and
  before the query is sent.
- The GraphQL query texts. Only the operation names and variables are
  modelled.
- `print` and structlog logging. A logged exception is modelled as the
  exception being swallowed.
- The catalogue operations other than the six named above. The sync
  operations are modelled only by their reshaping loops applied to the
  decoded reply; their requests are not
  modelled.
- JSON floating-point numbers. `JNum` holds an integer.
- Python's key equality between `True` and `1`, and between `1` and `1.0`.
  Distinct Json values are distinct keys.
- AsyncClient.Query: every operation is modelled as run on the singleton
  `Verisure.vs`. A second instance built by calling the class directly,
  whose guard would update the singleton rather than itself, is not
  modelled.
- AsyncClient.Finish: the instance is returned by value. The Python object
  identity of repeated returns is stated as "the same username" plus "the
  registry's only instance".
- Dictionary order. Python dicts keep the order in which keys were first
  inserted; the results are Dafny maps, which have none. Within one group
  the input order is kept.
- Overlapping `create` coroutines. A second caller whose `create` runs while
  the first is awaiting `APIVerisure.create` sees `vs` set and no handler;
  the model runs each `create` to completion before the next starts.
- Reshape.TrackingEntry: Python's `is not None` is modelled as "not JSON
  null"; no other value is None after decoding.

## Findings

| source | as written | input that shows it | evidently intended | confidence | as-written member | corrected member |
|---|---|---|---|---|---|---|
| verisureGrafqlAPI_async.py:323-357 | `_body` is assigned only inside `if self._giid is None:`, so the `doSession` line reads an unbound local whenever a giid is already set | A discovered installation (giid `"1"`), handler built, reply `{"data":{"installation":{"communicationState":[]}}}`: UnboundLocalError instead of `{}` | Build the body after the guard, as every other query does: one request with the current giid | high, not executed | AsyncClient.GetCommunicationAsWritten (shown by AsyncClient.CommunicationDiscrepancy) | AsyncClient.GetCommunication |
| verisureGrafqlAPI_async.py:30-58 | The handler check is nested in `if cls.vs is None:`. If building the handler raises, or returns None, `vs` is already set, the handler is never built again, and every later `create` fails on `None.doSession` and returns None | First `create` while the handler build raises (or returns None), second `create` against a healthy service: both return None | Build the handler whenever it is missing, so a later call recovers | medium, not executed | AsyncClient.CreateAsWritten (shown by AsyncClient.CreateDiscrepancy and AsyncClient.AsWrittenPoisonPersists) | AsyncClient.CreateCorrected (proved by AsyncClient.CorrectedRecovers) |

=== FILE: async_client.dfy ===
/**
 * The async client (verisureGrafqlAPI_async.py). Its state is the pair of
 * class attributes `Verisure.vs` (the singleton instance, reduced to the
 * username and giid the core reads) and `Verisure.apiHandler` (only whether
 * it has been built: the handler's own retries, tokens and sessions are
 * behind `doSession` and answered by the network oracle). Every operation is
 * modelled as run on the singleton, the way `create` hands it out.
 */
module AsyncClient {
  import opened Wrappers
  import opened JsonModel
  import opened Wire
  import opened Discovery
  import opened Reshape

  datatype Instance = Instance(username: Json, giid: Json)

  /** `Verisure.vs` and whether `Verisure.apiHandler` is set. */
  datatype Registry = Registry(vs: Option<Instance>, hasHandler: bool)

  /** Both class attributes start as None. */
  const Initial: Registry := Registry(None, false)

  /** The singleton exists but its handler was never built. */
  predicate Poisoned(reg: Registry)
  {
    reg.vs.Some? && !reg.hasHandler
  }

  /** An operation's effect: the class attributes after it, its value (`None`: it raised), its calls. */
  datatype Step<T> = Step(reg: Registry, result: Option<T>, trace: seq<Call>)

  /** The variables every installation query sends. */
  function GiidBody(operation: string, giid: Json): Body
  {
    [Envelope(operation, map["giid" := giid])]
  }

  /**
   * `getAllInstallations`: one `doSession` with the discovery query, then the
   * loop that leaves the last installation's giid on the instance. Without
   * a handler, `None.doSession` raises AttributeError before any request.
   */
  function GetAllInstallations(reg: Registry, net: Net): (r: Step<()>)
    requires reg.vs.Some?
    ensures r.reg.hasHandler == reg.hasHandler
    ensures r.reg.vs.Some? && r.reg.vs.value.username == reg.vs.value.username
    ensures !reg.hasHandler ==> r == Step(reg, None, [])
    ensures reg.hasHandler ==> r.trace == [Session(FetchAllInstallations(reg.vs.value.username))]
    // a request that raised leaves the instance alone
    ensures reg.hasHandler && net(r.trace).Raised? ==> r == Step(reg, None, r.trace)
    // on success every installation listed has a giid and the last one listed is active
    ensures r.result.Some? ==>
              && net(r.trace).Reply?
              && ItemsAt(net(r.trace).payload, InstallationsPath).Some?
              && var items := ItemsAt(net(r.trace).payload, InstallationsPath).value;
                 && (forall i :: 0 <= i < |items| ==> HasGiid(items[i]))
                 && r.reg.vs.value.giid == (if |items| == 0 then reg.vs.value.giid else Get(items[|items| - 1], "giid").value)
    // after any reply the loop decides: the giid it leaves is kept, and a value is returned exactly when it completes
    ensures reg.hasHandler && net(r.trace).Reply? ==>
              && r.reg.vs == Some(reg.vs.value.(giid := Apply(reg.vs.value.giid, net(r.trace).payload).0))
              && (r.result.Some? <==> Apply(reg.vs.value.giid, net(r.trace).payload).1)
  {
    var inst := reg.vs.value;
    if !reg.hasHandler then Step(reg, None, [])
    else
      var call := Session(FetchAllInstallations(inst.username));
      match net([call])
      case Raised => Step(reg, None, [call])
      case Reply(p) =>
        var (giid, completed) := Apply(inst.giid, p);
        Step(reg.(vs := Some(inst.(giid := giid))), if completed then Some(()) else None, [call])
  }

  /**
   * `if self._giid is None: await self.vs.getAllInstallations()`: the guard
   * every installation query starts with. A giid already set means no
   * request and no change.
   */
  function EnsureGiid(reg: Registry, net: Net): (r: Step<()>)
    requires reg.vs.Some?
    ensures r.reg.hasHandler == reg.hasHandler
    ensures r.reg.vs.Some? && r.reg.vs.value.username == reg.vs.value.username
    ensures reg.vs.value.giid != JNull ==> r == Step(reg, Some(()), [])
    ensures reg.vs.value.giid == JNull ==>
              r.trace == (if reg.hasHandler then [Session(FetchAllInstallations(reg.vs.value.username))] else [])
    // after a guard that ran discovery and returned, the giid is the last installation's, or still None if none is listed
    ensures reg.vs.value.giid == JNull && r.result.Some? ==>
              && net(r.trace).Reply?
              && ItemsAt(net(r.trace).payload, InstallationsPath).Some?
              && var items := ItemsAt(net(r.trace).payload, InstallationsPath).value;
                 && (forall i :: 0 <= i < |items| ==> HasGiid(items[i]))
                 && r.reg.vs.value.giid == (if |items| == 0 then JNull else Get(items[|items| - 1], "giid").value)
    // a discovery request that raised leaves the instance alone
    ensures reg.vs.value.giid == JNull && reg.hasHandler && net(r.trace).Raised? ==> r == Step(reg, None, r.trace)
    // without a handler the discovery the guard starts raises at once
    ensures reg.vs.value.giid == JNull && !reg.hasHandler ==> r == Step(reg, None, [])
    // after a reply the guard returns exactly when the discovery loop completes, leaving the giid it reached
    ensures reg.vs.value.giid == JNull && reg.hasHandler && net(r.trace).Reply? ==>
              && r.reg.vs.value.giid == Apply(JNull, net(r.trace).payload).0
              && (r.result.Some? <==> Apply(JNull, net(r.trace).payload).1)
  {
    if reg.vs.value.giid != JNull then Step(reg, Some(()), [])
    else GetAllInstallations(reg, net)
  }

  /**
   * The shape shared by the installation queries: the guard, then the body
   * built from the giid in force AFTER the guard, one `doSession`, and the
   * reshaping loop over its answer.
   */
  function Query<T>(reg: Registry, net: Net, body: Json -> Body, reshape: Json -> Option<T>): (r: Step<T>)
    requires reg.vs.Some?
    ensures r.reg.hasHandler == reg.hasHandler
    ensures r.reg.vs.Some? && r.reg.vs.value.username == reg.vs.value.username
    ensures |r.trace| <= 2
    // with a giid in force, exactly one request, carrying that giid, and no change to the instance
    ensures reg.vs.value.giid != JNull ==>
              r.reg == reg && r.trace == (if reg.hasHandler then [Session(body(reg.vs.value.giid))] else [])
    // a value is returned only from a reply to a query carrying the final giid
    ensures r.result.Some? ==>
              && |r.trace| >= 1
              && r.trace[|r.trace| - 1] == Session(body(r.reg.vs.value.giid))
              && net(r.trace).Reply?
              && r.result == reshape(net(r.trace).payload)
    // with giid None, discovery is the first request
    ensures reg.vs.value.giid == JNull && reg.hasHandler ==>
              |r.trace| >= 1 && r.trace[0] == Session(FetchAllInstallations(reg.vs.value.username))
    // a guard that raised, or a missing handler, ends the query with no further request
    ensures EnsureGiid(reg, net).result.None? || !reg.hasHandler ==>
              r == Step(EnsureGiid(reg, net).reg, None, EnsureGiid(reg, net).trace)
    // a guard that returned is followed by exactly one query, carrying the giid it left, whose reply is reshaped
    ensures var g := EnsureGiid(reg, net);
            reg.hasHandler && g.result.Some? ==>
              && r.reg == g.reg
              && r.trace == g.trace + [Session(body(g.reg.vs.value.giid))]
              && (net(r.trace).Reply? ==> r.result == reshape(net(r.trace).payload))
              && (net(r.trace).Raised? ==> r.result.None?)
  {
    var g := EnsureGiid(reg, net);
    if g.result.None? || !g.reg.hasHandler then Step(g.reg, None, g.trace)
    else
      var t := g.trace + [Session(body(g.reg.vs.value.giid))];
      match net(t)
      case Raised => Step(g.reg, None, t)
      case Reply(p) => Step(g.reg, reshape(p), t)
  }

  /** The async event-log query; the dates arrive already formatted as YYYYMMDD. */
  function EventLogBody(fromText: string, toText: string, categories: Json, giid: Json): Body
  {
    [Envelope("EventLog", map[
      "hideNotifications" := JBool(true),
      "offset" := JNum(0),
      "pagesize" := JNum(255),
      "eventCategories" := categories,
      "giid" := giid,
      "eventContactIds" := JArray([]),
      "fromDate" := JString(fromText),
      "toDate" := JString(toText)])]
  }

  /** `getEventLog`: events grouped by category, INTRUSION events keeping their arm state. */
  function GetEventLog(reg: Registry, net: Net, fmt: TimeFormat, fromText: string, toText: string, categories: Json)
    : (r: Step<map<Json, seq<EventPart>>>)
    requires reg.vs.Some?
    ensures reg.vs.value.giid != JNull ==>
              r.reg == reg
              && r.trace == (if reg.hasHandler then [Session(EventLogBody(fromText, toText, categories, reg.vs.value.giid))] else [])
    ensures r.result.Some? ==>
              && r.reg.vs.Some? && |r.trace| >= 1 && net(r.trace).Reply?
              && r.trace[|r.trace| - 1] == Session(EventLogBody(fromText, toText, categories, r.reg.vs.value.giid))
              && r.result == EventLog(net(r.trace).payload, fmt, Cooperative)
    ensures reg.vs.value.giid == JNull && reg.hasHandler ==>
              |r.trace| >= 1 && r.trace[0] == Session(FetchAllInstallations(reg.vs.value.username))
    ensures EnsureGiid(reg, net).result.None? || !reg.hasHandler ==>
              r == Step(EnsureGiid(reg, net).reg, None, EnsureGiid(reg, net).trace)
    ensures var g := EnsureGiid(reg, net);
            reg.hasHandler && g.result.Some? ==>
              && r.reg == g.reg
              && r.trace == g.trace + [Session(EventLogBody(fromText, toText, categories, g.reg.vs.value.giid))]
              && (net(r.trace).Reply? ==> r.result == EventLog(net(r.trace).payload, fmt, Cooperative))
  {
    Query(reg, net, g => EventLogBody(fromText, toText, categories, g), p => EventLog(p, fmt, Cooperative))
  }

  /**
   * `getCommunication` with the body built after the guard, as in every other
   * query: a set giid costs exactly one request and yields the grouped tests.
   */
  function GetCommunication(reg: Registry, net: Net, fmt: TimeFormat): (r: Step<map<Json, seq<CommPart>>>)
    requires reg.vs.Some?
    ensures reg.vs.value.giid != JNull ==>
              r.reg == reg
              && r.trace == (if reg.hasHandler then [Session(GiidBody("communicationState", reg.vs.value.giid))] else [])
    ensures r.result.Some? ==>
              && r.reg.vs.Some? && |r.trace| >= 1 && net(r.trace).Reply?
              && r.trace[|r.trace| - 1] == Session(GiidBody("communicationState", r.reg.vs.value.giid))
              && r.result == Communication(net(r.trace).payload, fmt)
    ensures reg.vs.value.giid == JNull && reg.hasHandler ==>
              |r.trace| >= 1 && r.trace[0] == Session(FetchAllInstallations(reg.vs.value.username))
    ensures EnsureGiid(reg, net).result.None? || !reg.hasHandler ==>
              r == Step(EnsureGiid(reg, net).reg, None, EnsureGiid(reg, net).trace)
    ensures var g := EnsureGiid(reg, net);
            reg.hasHandler && g.result.Some? ==>
              && r.reg == g.reg
              && r.trace == g.trace + [Session(GiidBody("communicationState", g.reg.vs.value.giid))]
              && (net(r.trace).Reply? ==> r.result == Communication(net(r.trace).payload, fmt))
  {
    Query(reg, net, g => GiidBody("communicationState", g), p => Communication(p, fmt))
  }

  /**
   * `getCommunication` as written: `_body` is assigned inside the guard's
   * `if`, so once a giid is set the `doSession` line reads an unbound local
   * and raises UnboundLocalError before any request.
   */
  function GetCommunicationAsWritten(reg: Registry, net: Net, fmt: TimeFormat): (r: Step<map<Json, seq<CommPart>>>)
    requires reg.vs.Some?
    ensures reg.vs.value.giid != JNull ==> r == Step(reg, None, [])
    ensures reg.vs.value.giid == JNull ==> r == GetCommunication(reg, net, fmt)
  {
    if reg.vs.value.giid != JNull then Step(reg, None, [])
    else GetCommunication(reg, net, fmt)
  }

  /**
   * The two diverge on an ordinary call: an installation already discovered
   * and an empty list of communication tests.
   */
  lemma CommunicationDiscrepancy(fmt: TimeFormat)
    ensures var reg := Registry(Some(Instance(JString("user"), JString("1"))), true);
            var net: Net := h => Reply(NoTests);
            && GetCommunication(reg, net, fmt).result == Some(map[])
            && GetCommunicationAsWritten(reg, net, fmt).result.None?
  {
    var reg := Registry(Some(Instance(JString("user"), JString("1"))), true);
    var net: Net := h => Reply(NoTests);
    var r := GetCommunication(reg, net, fmt);
    assert net(r.trace) == Reply(NoTests);
    assert ItemsAt(NoTests, CommunicationPath) == Some([]);
    var c := Communication(NoTests, fmt);
    assert c.Some?;
    assert c.value.Keys == {};
  }

  /** The reply of an installation with no communication tests recorded. */
  const NoTests: Json :=
    JObject(map["data" := JObject(map["installation" := JObject(map["communicationState" := JArray([])])])])

  /** `getDevices`: one `area/label` name per device, in order. */
  function GetDevices(reg: Registry, net: Net, render: Render): (r: Step<seq<string>>)
    requires reg.vs.Some?
    ensures reg.vs.value.giid != JNull ==>
              r.reg == reg && r.trace == (if reg.hasHandler then [Session(GiidBody("Devices", reg.vs.value.giid))] else [])
    ensures r.result.Some? ==>
              && r.reg.vs.Some? && |r.trace| >= 1 && net(r.trace).Reply?
              && r.trace[|r.trace| - 1] == Session(GiidBody("Devices", r.reg.vs.value.giid))
              && r.result == DeviceNames(net(r.trace).payload, render)
    ensures reg.vs.value.giid == JNull && reg.hasHandler ==>
              |r.trace| >= 1 && r.trace[0] == Session(FetchAllInstallations(reg.vs.value.username))
    ensures EnsureGiid(reg, net).result.None? || !reg.hasHandler ==>
              r == Step(EnsureGiid(reg, net).reg, None, EnsureGiid(reg, net).trace)
    ensures var g := EnsureGiid(reg, net);
            reg.hasHandler && g.result.Some? ==>
              && r.reg == g.reg
              && r.trace == g.trace + [Session(GiidBody("Devices", g.reg.vs.value.giid))]
              && (net(r.trace).Reply? ==> r.result == DeviceNames(net(r.trace).payload, render))
  {
    Query(reg, net, g => GiidBody("Devices", g), p => DeviceNames(p, render))
  }

  /** `read_smartplug_state`: one current state per area. */
  function ReadSmartplugState(reg: Registry, net: Net): (r: Step<map<Json, Json>>)
    requires reg.vs.Some?
    ensures reg.vs.value.giid != JNull ==>
              r.reg == reg && r.trace == (if reg.hasHandler then [Session(GiidBody("SmartPlug", reg.vs.value.giid))] else [])
    ensures r.result.Some? ==>
              && r.reg.vs.Some? && |r.trace| >= 1 && net(r.trace).Reply?
              && r.trace[|r.trace| - 1] == Session(GiidBody("SmartPlug", r.reg.vs.value.giid))
              && r.result == SmartplugStates(net(r.trace).payload)
    ensures reg.vs.value.giid == JNull && reg.hasHandler ==>
              |r.trace| >= 1 && r.trace[0] == Session(FetchAllInstallations(reg.vs.value.username))
    ensures EnsureGiid(reg, net).result.None? || !reg.hasHandler ==>
              r == Step(EnsureGiid(reg, net).reg, None, EnsureGiid(reg, net).trace)
    ensures var g := EnsureGiid(reg, net);
            reg.hasHandler && g.result.Some? ==>
              && r.reg == g.reg
              && r.trace == g.trace + [Session(GiidBody("SmartPlug", g.reg.vs.value.giid))]
              && (net(r.trace).Reply? ==> r.result == SmartplugStates(net(r.trace).payload))
  {
    Query(reg, net, g => GiidBody("SmartPlug", g), SmartplugStates)
  }

  /** `userTracking`: one location entry per user name. */
  function UserTracking(reg: Registry, net: Net, fmt: TimeFormat): (r: Step<map<Json, Tracking>>)
    requires reg.vs.Some?
    ensures reg.vs.value.giid != JNull ==>
              r.reg == reg && r.trace == (if reg.hasHandler then [Session(GiidBody("userTrackings", reg.vs.value.giid))] else [])
    ensures r.result.Some? ==>
              && r.reg.vs.Some? && |r.trace| >= 1 && net(r.trace).Reply?
              && r.trace[|r.trace| - 1] == Session(GiidBody("userTrackings", r.reg.vs.value.giid))
              && r.result == UserTrackings(net(r.trace).payload, fmt)
    ensures reg.vs.value.giid == JNull && reg.hasHandler ==>
              |r.trace| >= 1 && r.trace[0] == Session(FetchAllInstallations(reg.vs.value.username))
    ensures EnsureGiid(reg, net).result.None? || !reg.hasHandler ==>
              r == Step(EnsureGiid(reg, net).reg, None, EnsureGiid(reg, net).trace)
    ensures var g := EnsureGiid(reg, net);
            reg.hasHandler && g.result.Some? ==>
              && r.reg == g.reg
              && r.trace == g.trace + [Session(GiidBody("userTrackings", g.reg.vs.value.giid))]
              && (net(r.trace).Reply? ==> r.result == UserTrackings(net(r.trace).payload, fmt))
  {
    Query(reg, net, g => GiidBody("userTrackings", g), p => UserTrackings(p, fmt))
  }

  /** What `create` leaves behind and hands back (`None`: the exception was logged and None returned). */
  datatype Created = Created(reg: Registry, returned: Option<Instance>, trace: seq<Call>)

  /** `await cls.vs.getAllInstallations(); return cls.vs`, after the calls in `done`. */
  function Finish(reg: Registry, net: Net, done: seq<Call>): (r: Created)
    requires reg.vs.Some?
    ensures r.reg.vs.Some? && r.reg.vs.value.username == reg.vs.value.username && r.reg.hasHandler == reg.hasHandler
    ensures Builds(r.trace) == Builds(done)
    ensures r.returned.Some? ==> r.returned == r.reg.vs && reg.hasHandler
    ensures !reg.hasHandler ==> r == Created(reg, None, done)
    // with a handler: one discovery request, and the instance is returned exactly when discovery completes
    ensures reg.hasHandler ==>
              var d := GetAllInstallations(reg, After(net, done));
              && r.trace == done + [Session(FetchAllInstallations(reg.vs.value.username))]
              && r.reg == d.reg
              && (r.returned.Some? <==> d.result.Some?)
  {
    var d := GetAllInstallations(reg, After(net, done));
    BuildsAppend(done, d.trace);
    assert Builds(d.trace) == 0 by {
      if |d.trace| == 1 {
        assert d.trace[..0] == [];
      }
    }
    Created(d.reg, if d.result.Some? then d.reg.vs else None, done + d.trace)
  }

  /**
   * Building the handler, answered by the network: `cls.apiHandler` takes
   * whatever `APIVerisure.create` returns, so it is set only when the call
   * neither raised nor returned None.
   */
  predicate BuildSucceeds(net: Net)
  {
    net([BuildHandler]).Reply? && net([BuildHandler]).payload != JNull
  }

  /**
   * `create` as written: the handler is built only inside `if cls.vs is None`.
   * If that build raises, `vs` is already set, so no later call ever builds
   * the handler again and every later `create` fails on `None.doSession`.
   */
  function CreateAsWritten(reg: Registry, net: Net, username: Json): (r: Created)
    ensures r.reg.vs.Some?
    // an existing singleton is returned with its own credentials; the new ones are ignored
    ensures reg.vs.Some? ==> r.reg.vs.value.username == reg.vs.value.username && r.reg.hasHandler == reg.hasHandler
    ensures reg.vs.None? ==> r.reg.vs.value.username == username
    ensures Builds(r.trace) == (if reg.vs.None? && !reg.hasHandler then 1 else 0)
    ensures r.returned.Some? ==> r.returned == r.reg.vs && r.reg.hasHandler
    // the failure mode: a first build that raises leaves a singleton without handler ...
    ensures reg.vs.None? && !reg.hasHandler && !BuildSucceeds(net) ==> Poisoned(r.reg) && r.returned.None?
    // ... namely the fresh instance, with giid None, and no request after the build
    ensures reg.vs.None? && !reg.hasHandler && !BuildSucceeds(net) ==>
              r == Created(Registry(Some(Instance(username, JNull)), false), None, [BuildHandler])
    // ... and from there every call fails at once and changes nothing
    ensures Poisoned(reg) ==> r == Created(reg, None, [])
    // a singleton with its handler: `create` is one discovery, returning the instance exactly when it completes
    ensures reg.vs.Some? && reg.hasHandler ==>
              var d := GetAllInstallations(reg, net);
              && r.reg == d.reg && r.trace == d.trace
              && (r.returned.Some? <==> d.result.Some?)
    // no singleton but a handler already there: discovery on the fresh instance, no build
    ensures reg.vs.None? && reg.hasHandler ==>
              var d := GetAllInstallations(Registry(Some(Instance(username, JNull)), true), net);
              && r.reg == d.reg && r.trace == d.trace
              && (r.returned.Some? <==> d.result.Some?)
    // a first call whose build returns a handler: discovery on the fresh instance, after the build
    ensures reg.vs.None? && !reg.hasHandler && BuildSucceeds(net) ==>
              var d := GetAllInstallations(Registry(Some(Instance(username, JNull)), true), After(net, [BuildHandler]));
              && r.reg == d.reg && r.trace == [BuildHandler] + d.trace
              && (r.returned.Some? <==> d.result.Some?)
  {
    if reg.vs.Some? then Finish(reg, net, [])
    else
      var reg1 := reg.(vs := Some(Instance(username, JNull)));
      assert Builds([]) == 0;
      if reg.hasHandler then Finish(reg1, net, [])
      else
        assert Builds([BuildHandler]) == 1 by {
          assert [BuildHandler][..0] == [];
        }
        if !BuildSucceeds(net) then Created(reg1, None, [BuildHandler])
        else Finish(reg1.(hasHandler := true), net, [BuildHandler])
  }

  /**
   * `create` with the handler check taken out of the `vs` check: a handler
   * missing for any reason is built on the next call.
   */
  function CreateCorrected(reg: Registry, net: Net, username: Json): (r: Created)
    ensures r.reg.vs.Some?
    ensures reg.vs.Some? ==> r.reg.vs.value.username == reg.vs.value.username
    ensures reg.vs.None? ==> r.reg.vs.value.username == username
    // the handler is built exactly when it is missing
    ensures Builds(r.trace) == (if reg.hasHandler then 0 else 1)
    // and afterwards it is there exactly when it was there or the build returned a handler
    ensures r.reg.hasHandler <==> reg.hasHandler || BuildSucceeds(net)
    ensures r.returned.Some? ==> r.returned == r.reg.vs && r.reg.hasHandler
    // a build that raises ends the call with None and the singleton still without handler
    ensures !reg.hasHandler && !BuildSucceeds(net) ==> r.returned.None? && r.trace == [BuildHandler]
    ensures !reg.hasHandler && !BuildSucceeds(net) ==>
              r.reg == (if reg.vs.Some? then reg else reg.(vs := Some(Instance(username, JNull))))
    // once the handler is there: discovery on the singleton, returning it exactly when discovery completes
    ensures reg.hasHandler || BuildSucceeds(net) ==>
              var done := if reg.hasHandler then [] else [BuildHandler];
              var d := GetAllInstallations(Registry(if reg.vs.Some? then reg.vs else Some(Instance(username, JNull)), true), After(net, done));
              && r.reg == d.reg && r.trace == done + d.trace
              && (r.returned.Some? <==> d.result.Some?)
  {
    var reg1 := if reg.vs.Some? then reg else reg.(vs := Some(Instance(username, JNull)));
    assert Builds([]) == 0;
    if reg1.hasHandler then Finish(reg1, net, [])
    else
      assert Builds([BuildHandler]) == 1 by {
        assert [BuildHandler][..0] == [];
      }
      if !BuildSucceeds(net) then Created(reg1, None, [BuildHandler])
      else Finish(reg1.(hasHandler := true), net, [BuildHandler])
  }

  /** One `create` call of either version. */
  function Create(reg: Registry, net: Net, username: Json, corrected: bool): (r: Created)
    ensures r.reg.vs.Some?
    ensures reg.vs.Some? ==> r.reg.vs.value.username == reg.vs.value.username
    ensures reg.vs.None? ==> r.reg.vs.value.username == username
    ensures r.returned.Some? ==> r.returned == r.reg.vs
  {
    if corrected then CreateCorrected(reg, net, username) else CreateAsWritten(reg, net, username)
  }

  /** The outcome of a series of `create` calls: the final registry, each call's return, the handler builds. */
  datatype Series = Series(reg: Registry, answers: seq<Option<Instance>>, builds: nat)

  /** `create` called once per network/username pair, in order. */
  function CreateSeries(reg: Registry, nets: seq<Net>, users: seq<Json>, corrected: bool): (r: Series)
    requires |nets| == |users|
    ensures |r.answers| == |nets|
    decreases |nets|
  {
    if |nets| == 0 then Series(reg, [], 0)
    else
      var c := Create(reg, nets[0], users[0], corrected);
      var rest := CreateSeries(c.reg, nets[1..], users[1..], corrected);
      Series(rest.reg, [c.returned] + rest.answers, Builds(c.trace) + rest.builds)
  }

  /**
   * `create` hands out one singleton: once it exists, every instance returned
   * is that one, still carrying the username it was made with, whoever asks.
   */
  lemma {:induction false} SeriesKeepsSingleton(reg: Registry, nets: seq<Net>, users: seq<Json>, corrected: bool)
    requires |nets| == |users| && reg.vs.Some?
    ensures var s := CreateSeries(reg, nets, users, corrected);
            && s.reg.vs.Some? && s.reg.vs.value.username == reg.vs.value.username
            && forall i :: 0 <= i < |s.answers| && s.answers[i].Some? ==> s.answers[i].value.username == reg.vs.value.username
    decreases |nets|
  {
    if |nets| > 0 {
      var c := Create(reg, nets[0], users[0], corrected);
      SeriesKeepsSingleton(c.reg, nets[1..], users[1..], corrected);
      var s := CreateSeries(reg, nets, users, corrected);
      var rest := CreateSeries(c.reg, nets[1..], users[1..], corrected);
      assert s.answers == [c.returned] + rest.answers;
      forall i | 0 < i < |s.answers|
        ensures s.answers[i] == rest.answers[i - 1]
      {
      }
    }
  }

  /** From the initial state, every instance `create` returns is the first caller's. */
  lemma FirstCallerOwnsSingleton(nets: seq<Net>, users: seq<Json>, corrected: bool)
    requires |nets| == |users| && |nets| > 0
    ensures var s := CreateSeries(Initial, nets, users, corrected);
            forall i :: 0 <= i < |s.answers| && s.answers[i].Some? ==> s.answers[i].value.username == users[0]
  {
    var c := Create(Initial, nets[0], users[0], corrected);
    SeriesKeepsSingleton(c.reg, nets[1..], users[1..], corrected);
    var s := CreateSeries(Initial, nets, users, corrected);
    var rest := CreateSeries(c.reg, nets[1..], users[1..], corrected);
    assert s.answers == [c.returned] + rest.answers;
    forall i | 0 < i < |s.answers|
      ensures s.answers[i] == rest.answers[i - 1]
    {
    }
  }

  /** As written, the handler is built at most once over any series, and never once `vs` is set. */
  lemma {:induction false} AsWrittenBuildsOnce(reg: Registry, nets: seq<Net>, users: seq<Json>)
    requires |nets| == |users|
    ensures CreateSeries(reg, nets, users, false).builds <= 1
    ensures reg.vs.Some? ==> CreateSeries(reg, nets, users, false).builds == 0
    decreases |nets|
  {
    if |nets| > 0 {
      var c := CreateAsWritten(reg, nets[0], users[0]);
      AsWrittenBuildsOnce(c.reg, nets[1..], users[1..]);
    }
  }

  /** As written, a poisoned singleton stays poisoned and every later `create` returns None. */
  lemma {:induction false} AsWrittenPoisonPersists(reg: Registry, nets: seq<Net>, users: seq<Json>)
    requires |nets| == |users| && Poisoned(reg)
    ensures CreateSeries(reg, nets, users, false).reg == reg
    ensures forall i :: 0 <= i < |nets| ==> CreateSeries(reg, nets, users, false).answers[i].None?
    decreases |nets|
  {
    if |nets| > 0 {
      AsWrittenPoisonPersists(reg, nets[1..], users[1..]);
    }
  }

  /** Corrected, a handler once built stays, and no further build is attempted. */
  lemma {:induction false} CorrectedHandlerStays(reg: Registry, nets: seq<Net>, users: seq<Json>)
    requires |nets| == |users| && reg.hasHandler
    ensures CreateSeries(reg, nets, users, true).reg.hasHandler
    ensures CreateSeries(reg, nets, users, true).builds == 0
    decreases |nets|
  {
    if |nets| > 0 {
      var c := CreateCorrected(reg, nets[0], users[0]);
      CorrectedHandlerStays(c.reg, nets[1..], users[1..]);
    }
  }

  /** Call `k` is the first whose handler build returns a handler. */
  predicate FirstBuildAt(nets: seq<Net>, k: nat)
  {
    k < |nets| && BuildSucceeds(nets[k]) && forall j :: 0 <= j < k ==> !BuildSucceeds(nets[j])
  }

  /**
   * Corrected, a poisoned singleton recovers at the first call whose build
   * returns a handler: the k calls before it each retry the build and return
   * None, and no call after it builds again.
   */
  lemma {:induction false} CorrectedRecovers(k: nat, reg: Registry, nets: seq<Net>, users: seq<Json>)
    requires |nets| == |users| && Poisoned(reg) && FirstBuildAt(nets, k)
    ensures CreateSeries(reg, nets, users, true).reg.hasHandler
    ensures CreateSeries(reg, nets, users, true).builds == k + 1
    ensures forall j :: 0 <= j < k ==> CreateSeries(reg, nets, users, true).answers[j].None?
  {
    var c := CreateCorrected(reg, nets[0], users[0]);
    if k == 0 {
      CorrectedHandlerStays(c.reg, nets[1..], users[1..]);
    } else {
      assert Poisoned(c.reg) && c.returned.None?;
      CorrectedRecovers(k - 1, c.reg, nets[1..], users[1..]);
      var s := CreateSeries(reg, nets, users, true);
      var rest := CreateSeries(c.reg, nets[1..], users[1..], true);
      assert s.answers == [c.returned] + rest.answers;
      forall j | 0 < j < k
        ensures s.answers[j] == rest.answers[j - 1]
      {
      }
    }
  }

  /** The reply of an account with one installation whose giid is "1". */
  const OneInstallation: Json :=
    JObject(map["data" := JObject(map["account" := JObject(map["installations" :=
      JArray([JObject(map["giid" := JString("1")])])])])])

  /** A service where every call raises. */
  function Down(h: seq<Call>): Outcome
  {
    Raised
  }

  /** A healthy service: the handler builds and the account lists one installation. */
  function Up(h: seq<Call>): Outcome
  {
    if h == [BuildHandler] then Reply(JString("handler")) else Reply(OneInstallation)
  }

  /** The corrected `create` repairs a singleton left without handler once the service is up. */
  lemma RecoveryOnUp(user: Json)
    ensures CreateCorrected(Registry(Some(Instance(user, JNull)), false), Up, user).returned
            == Some(Instance(user, JString("1")))
  {
    var fetch := Session(FetchAllInstallations(user));
    assert BuildSucceeds(Up);
    assert [BuildHandler] + [fetch] != [BuildHandler];
    assert After(Up, [BuildHandler])([fetch]) == Reply(OneInstallation);
    assert ItemsAt(OneInstallation, InstallationsPath) == Some([JObject(map["giid" := JString("1")])]);
  }

  /**
   * Two `create` calls: the first one's handler build raises, the second one
   * meets a healthy service. As written the second call still returns None;
   * corrected it returns the singleton with its installation discovered.
   */
  lemma CreateDiscrepancy(user: Json)
    ensures CreateSeries(Initial, [Down, Up], [user, user], false).answers == [None, None]
    ensures CreateSeries(Initial, [Down, Up], [user, user], true).answers == [None, Some(Instance(user, JString("1")))]
  {
    var poisoned := Registry(Some(Instance(user, JNull)), false);
    var nets: seq<Net> := [Down, Up];
    var users := [user, user];
    assert nets[1..] == [Up] && users[1..] == [user];
    assert CreateAsWritten(Initial, Down, user) == Created(poisoned, None, [BuildHandler]);
    assert CreateAsWritten(poisoned, Up, user).returned.None?;
    assert CreateSeries(poisoned, [Up], [user], false).answers == [None];
    assert CreateCorrected(Initial, Down, user) == Created(poisoned, None, [BuildHandler]);
    RecoveryOnUp(user);
    assert CreateSeries(poisoned, [Up], [user], true).answers == [Some(Instance(user, JString("1")))];
  }
}

=== FILE: discovery.dfy ===
/**
 * Installation discovery, shared by both clients: the fetchAllInstallations
 * query and the loop `for d in response["data"]["account"]["installations"]:
 * giid = d["giid"]`, which overwrites the active installation on every
 * iteration, so the last installation listed wins.
 */
module Discovery {
  import opened Wrappers
  import opened JsonModel
  import opened Wire

  const InstallationsPath: seq<string> := ["data", "account", "installations"]

  /** The discovery request: installations of the account with this e-mail. */
  function FetchAllInstallations(username: Json): Body
  {
    [Envelope("fetchAllInstallations", map["email" := username])]
  }

  predicate HasGiid(d: Json)
  {
    Get(d, "giid").Some?
  }

  /** Index `k` is the first installation without a `giid` entry. */
  predicate FirstWithoutGiid(items: seq<Json>, k: nat)
  {
    k < |items| && !HasGiid(items[k]) && forall i :: 0 <= i < k ==> HasGiid(items[i])
  }

  /**
   * The loop body run over `items` starting from the active giid `giid`.
   * Returns the giid left behind and whether the loop completed; a missing
   * `giid` raises KeyError after the earlier iterations have already
   * overwritten the active giid.
   */
  function AssignGiids(giid: Json, items: seq<Json>): (r: (Json, bool))
    ensures r.1 <==> forall i :: 0 <= i < |items| ==> HasGiid(items[i])
    ensures r.1 ==> r.0 == (if |items| == 0 then giid else Get(items[|items| - 1], "giid").value)
    ensures !r.1 ==> exists k :: FirstWithoutGiid(items, k)
                               && r.0 == (if k == 0 then giid else Get(items[k - 1], "giid").value)
    decreases |items|
  {
    if |items| == 0 then (giid, true)
    else match Get(items[0], "giid")
      case None =>
        assert FirstWithoutGiid(items, 0);
        (giid, false)
      case Some(x) =>
        var r := AssignGiids(x, items[1..]);
        assert forall i :: 0 < i < |items| ==> items[1..][i - 1] == items[i];
        if r.1 then r
        else
          var k: nat :| FirstWithoutGiid(items[1..], k)
                   && r.0 == (if k == 0 then x else Get(items[1..][k - 1], "giid").value);
          assert FirstWithoutGiid(items, k + 1);
          r
  }

  /**
   * Discovery applied to a decoded reply: the active giid afterwards and
   * whether the loop finished without raising. A reply without the
   * installations list raises before the loop and leaves the giid alone.
   */
  function Apply(giid: Json, response: Json): (r: (Json, bool))
    ensures ItemsAt(response, InstallationsPath).None? ==> r == (giid, false)
    ensures r.1 <==> ItemsAt(response, InstallationsPath).Some?
                     && var items := ItemsAt(response, InstallationsPath).value;
                        forall i :: 0 <= i < |items| ==> HasGiid(items[i])
    ensures r.1 ==> var items := ItemsAt(response, InstallationsPath).value;
                    r.0 == (if |items| == 0 then giid else Get(items[|items| - 1], "giid").value)
  {
    match ItemsAt(response, InstallationsPath)
    case None => (giid, false)
    case Some(items) => AssignGiids(giid, items)
  }

  /** The `{}` of a failed request holds no installations: discovery raises on it. */
  lemma EmptyReplyRaises(giid: Json)
    ensures Apply(giid, EmptyObject) == (giid, false)
  {
    assert Get(EmptyObject, "data").None?;
  }
}

=== FILE: grouping.dfy ===
/**
 * The two dictionary-building loops the catalogue functions use, over a list
 * of (key, value) entries already extracted from the reply:
 *   - GroupBy: `if k not in out: out[k] = list()` then `out[k].append(v)`;
 *   - KeyBy:   `out[k] = v`, so a later entry overwrites an earlier one.
 * Each is related to an independent description: the filter `Select`, the
 * rank of an entry among those with its key, and the last entry with a key.
 */
module Grouping {

  /** The keys present in the entries. */
  function Keys<K, V>(e: seq<(K, V)>): set<K>
  {
    set i | 0 <= i < |e| :: e[i].0
  }

  /** The values whose key is `k`, in input order. */
  function Select<K(==), V>(e: seq<(K, V)>, k: K): seq<V>
    decreases |e|
  {
    if |e| == 0 then []
    else Select(e[..|e| - 1], k) + (if e[|e| - 1].0 == k then [e[|e| - 1].1] else [])
  }

  /** How many entries before index `i` share its key: its position in its group. */
  function Rank<K(==), V>(e: seq<(K, V)>, i: nat): nat
    requires i < |e|
  {
    |Select(e[..i], e[i].0)|
  }

  /** Entry `i` is the last one carrying key `k`. */
  predicate LastWith<K(==), V>(e: seq<(K, V)>, k: K, i: nat)
    requires i < |e|
  {
    e[i].0 == k && forall j :: i < j < |e| ==> e[j].0 != k
  }

  /** Grouping loop: each key maps to the list of its values, appended in order. */
  function GroupBy<K(==), V>(e: seq<(K, V)>): (m: map<K, seq<V>>)
    ensures m.Keys == Keys(e)
    ensures forall k :: k in m ==> m[k] == Select(e, k)
    decreases |e|
  {
    if |e| == 0 then map[]
    else
      var m0 := GroupBy(e[..|e| - 1]);
      var k := e[|e| - 1].0;
      var v := e[|e| - 1].1;
      assert Keys(e) == Keys(e[..|e| - 1]) + {k} by {
        assert forall i :: 0 <= i < |e| - 1 ==> e[..|e| - 1][i] == e[i];
      }
      if k in m0 then m0[k := m0[k] + [v]]
      else
        SelectAbsent(e[..|e| - 1], k);
        m0[k := [v]]
  }

  /** Keying loop: each key maps to the value of its last entry. */
  function KeyBy<K(==), V>(e: seq<(K, V)>): (m: map<K, V>)
    ensures m.Keys == Keys(e)
    decreases |e|
  {
    if |e| == 0 then map[]
    else
      var m0 := KeyBy(e[..|e| - 1]);
      var k := e[|e| - 1].0;
      var v := e[|e| - 1].1;
      assert Keys(e) == Keys(e[..|e| - 1]) + {k} by {
        assert forall i :: 0 <= i < |e| - 1 ==> e[..|e| - 1][i] == e[i];
      }
      m0[k := v]
  }

  /** The value kept for a key is the one of its last entry: later entries win. */
  lemma {:induction false} KeyByLast<K, V>(e: seq<(K, V)>, i: nat)
    requires i < |e| && LastWith(e, e[i].0, i)
    ensures e[i].0 in KeyBy(e) && KeyBy(e)[e[i].0] == e[i].1
    decreases |e|
  {
    assert e[i].0 in Keys(e);
    if i < |e| - 1 {
      var p := e[..|e| - 1];
      assert p[i] == e[i];
      assert e[|e| - 1].0 != e[i].0;
      assert LastWith(p, p[i].0, i) by {
        forall j | i < j < |p|
          ensures p[j].0 != p[i].0
        {
          assert p[j] == e[j];
        }
      }
      KeyByLast(p, i);
    }
  }

  /** A key absent from the entries has an empty group. */
  lemma {:induction false} SelectAbsent<K, V>(e: seq<(K, V)>, k: K)
    requires k !in Keys(e)
    ensures Select(e, k) == []
    decreases |e|
  {
    if |e| > 0 {
      var p := e[..|e| - 1];
      assert Keys(p) <= Keys(e) by {
        assert forall i :: 0 <= i < |p| ==> p[i] == e[i];
      }
      SelectAbsent(p, k);
    }
  }

  /** A key present in the entries has a last entry. */
  lemma {:induction false} LastWithExists<K, V>(e: seq<(K, V)>, k: K) returns (i: nat)
    requires k in Keys(e)
    ensures i < |e| && LastWith(e, k, i)
    decreases |e|
  {
    if e[|e| - 1].0 == k {
      i := |e| - 1;
    } else {
      var p := e[..|e| - 1];
      assert k in Keys(p) by {
        var w :| 0 <= w < |e| && e[w].0 == k;
        assert w < |e| - 1 && p[w] == e[w];
      }
      i := LastWithExists(p, k);
      assert p[i] == e[i];
    }
  }

  /** Every key of a keying holds the value of its own last entry, so no value comes from elsewhere. */
  lemma KeyByValues<K, V>(e: seq<(K, V)>)
    ensures forall k :: k in KeyBy(e) ==> exists i :: 0 <= i < |e| && LastWith(e, k, i) && KeyBy(e)[k] == e[i].1
  {
    forall k | k in KeyBy(e)
      ensures exists i :: 0 <= i < |e| && LastWith(e, k, i) && KeyBy(e)[k] == e[i].1
    {
      var i := LastWithExists(e, k);
      KeyByLast(e, i);
    }
  }

  /** Every last entry of a keying supplies its key's value. */
  lemma KeyByLastAll<K, V>(e: seq<(K, V)>)
    ensures forall i :: 0 <= i < |e| && LastWith(e, e[i].0, i) ==> e[i].0 in KeyBy(e) && KeyBy(e)[e[i].0] == e[i].1
  {
    forall i | 0 <= i < |e| && LastWith(e, e[i].0, i)
      ensures e[i].0 in KeyBy(e) && KeyBy(e)[e[i].0] == e[i].1
    {
      KeyByLast(e, i);
    }
  }

  /** The group of a key, grown by a later entry, keeps its earlier values as a prefix. */
  lemma {:induction false} SelectPrefix<K, V>(e: seq<(K, V)>, n: nat, k: K)
    requires n <= |e|
    ensures Select(e[..n], k) <= Select(e, k)
    decreases |e| - n
  {
    if n < |e| {
      SelectPrefix(e, n + 1, k);
      assert e[..n + 1][..n] == e[..n];
      assert e[..n + 1][n] == e[n];
    } else {
      assert e[..n] == e;
    }
  }

  /**
   * Every entry lands in the group of its key, at the position given by its
   * rank: nothing is lost, and distinct entries of one key get distinct slots.
   */
  lemma {:induction false} GroupByPlacement<K, V>(e: seq<(K, V)>, i: nat)
    requires i < |e|
    ensures e[i].0 in GroupBy(e)
    ensures Rank(e, i) < |GroupBy(e)[e[i].0]|
    ensures GroupBy(e)[e[i].0][Rank(e, i)] == e[i].1
  {
    var k := e[i].0;
    assert k in Keys(e);
    assert e[..i + 1][..i] == e[..i];
    assert Select(e[..i + 1], k) == Select(e[..i], k) + [e[i].1];
    SelectPrefix(e, i + 1, k);
  }

  /** Every entry of a grouping is placed at its rank under its key. */
  lemma GroupByPlacementAll<K, V>(e: seq<(K, V)>)
    ensures forall i :: 0 <= i < |e| ==>
      e[i].0 in GroupBy(e) && Rank(e, i) < |GroupBy(e)[e[i].0]| && GroupBy(e)[e[i].0][Rank(e, i)] == e[i].1
  {
    forall i | 0 <= i < |e|
      ensures e[i].0 in GroupBy(e) && Rank(e, i) < |GroupBy(e)[e[i].0]| && GroupBy(e)[e[i].0][Rank(e, i)] == e[i].1
    {
      GroupByPlacement(e, i);
    }
  }

  /** Within one group the input order is kept. */
  lemma {:induction false} RankOrder<K, V>(e: seq<(K, V)>, i: nat, j: nat)
    requires i < j < |e| && e[i].0 == e[j].0
    ensures Rank(e, i) < Rank(e, j)
  {
    var k := e[i].0;
    assert e[..j][..i + 1] == e[..i + 1];
    SelectPrefix(e[..j], i + 1, k);
    assert e[..i + 1][..i] == e[..i];
    assert Select(e[..i + 1], k) == Select(e[..i], k) + [e[i].1];
  }

  /** Some key of a non-empty map: the one `Total` counts first. */
  ghost function Pick<K, V>(m: map<K, V>): (k: K)
    requires |m.Keys| > 0
    ensures k in m
  {
    var k :| k in m; k
  }

  /** The number of values held across all groups of a map. */
  ghost function Total<K, V>(m: map<K, seq<V>>): nat
    decreases |m.Keys|
  {
    if |m.Keys| == 0 then 0
    else
      var k := Pick(m);
      assert |(m - {k}).Keys| < |m.Keys| by {
        assert (m - {k}).Keys == m.Keys - {k};
      }
      |m[k]| + Total(m - {k})
  }

  /** Removing two keys in either order gives the same map. */
  lemma RemoveTwo<K, V>(m: map<K, seq<V>>, c: K, k: K)
    ensures (m - {c}) - {k} == (m - {k}) - {c}
  {
  }

  /** `Total` does not depend on which key is taken first. */
  lemma {:induction false} TotalPick<K, V>(m: map<K, seq<V>>, k: K)
    requires k in m
    ensures Total(m) == |m[k]| + Total(m - {k})
    decreases |m.Keys|
  {
    var c := Pick(m);
    if c != k {
      var mc := m - {c};
      var mk := m - {k};
      assert mc.Keys == m.Keys - {c};
      assert mk.Keys == m.Keys - {k};
      assert k in mc && mc[k] == m[k];
      assert c in mk && mk[c] == m[c];
      TotalPick(mc, k);
      TotalPick(mk, c);
      RemoveTwo(m, c, k);
    }
  }

  /** Removing a key from an updated map forgets the update. */
  lemma RemoveUpdated<K, V>(m: map<K, seq<V>>, k: K, s: seq<V>)
    ensures m[k := s] - {k} == m - {k}
    ensures k !in m ==> m - {k} == m
  {
  }

  /** Replacing one group changes the total by the difference in its size. */
  lemma {:induction false} TotalUpdate<K, V>(m: map<K, seq<V>>, k: K, s: seq<V>)
    ensures k in m ==> Total(m[k := s]) + |m[k]| == Total(m) + |s|
    ensures k !in m ==> Total(m[k := s]) == Total(m) + |s|
  {
    var u := m[k := s];
    assert k in u && u[k] == s;
    TotalPick(u, k);
    RemoveUpdated(m, k, s);
    if k in m {
      TotalPick(m, k);
    }
  }

  /** Grouping keeps the count: the groups hold exactly as many values as there were entries. */
  lemma {:induction false} GroupByTotal<K, V>(e: seq<(K, V)>)
    ensures Total(GroupBy(e)) == |e|
    decreases |e|
  {
    if |e| > 0 {
      var p := e[..|e| - 1];
      GroupByTotal(p);
      var m0 := GroupBy(p);
      var k := e[|e| - 1].0;
      var v := e[|e| - 1].1;
      if k in m0 {
        TotalUpdate(m0, k, m0[k] + [v]);
      } else {
        TotalUpdate(m0, k, [v]);
      }
    }
  }
}

=== FILE: json.dfy ===
/**
 * Decoded JSON as the Python client sees it after `response.json()`, and the
 * few Python operations the client applies to it: `d["key"]` subscripts,
 * `for d in value` iteration, the `'errors' in reply` membership test and
 * hashability of dictionary keys.
 */
module JsonModel {
  import opened Wrappers

  /** JSON numbers carry an integer; floating point is not modelled. */
  datatype Json =
    | JNull
    | JBool(b: bool)
    | JNum(n: int)
    | JString(s: string)
    | JArray(items: seq<Json>)
    | JObject(fields: map<string, Json>)

  /** The `{}` the client returns when every endpoint failed. */
  const EmptyObject: Json := JObject(map[])

  /** `j[key]`: KeyError on a missing key, TypeError on a non-dict (both `None`). */
  function Get(j: Json, key: string): Option<Json>
  {
    if j.JObject? && key in j.fields then Some(j.fields[key]) else None
  }

  /** Chained subscripts `j[p0][p1]...`; `None` when any of them raises. */
  function At(j: Json, path: seq<string>): (r: Option<Json>)
    ensures |path| > 0 && !j.JObject? ==> r.None?
    decreases |path|
  {
    if |path| == 0 then Some(j)
    else
      var next :- Get(j, path[0]);
      At(next, path[1..])
  }

  /**
   * The elements a Python `for d in j:` loop visits, for loops whose body
   * starts by subscripting `d` with a string key. An empty dict or string
   * gives zero iterations. A non-empty dict or string yields strings, and
   * subscripting a string with a string raises before the first iteration
   * finishes, as does iterating null, a bool or a number: all `None`.
   */
  function Items(j: Json): (r: Option<seq<Json>>)
    ensures j.JArray? ==> r == Some(j.items)
    ensures r.Some? && |r.value| > 0 ==> j.JArray?
  {
    match j
    case JArray(xs) => Some(xs)
    case JObject(m) => if |m| == 0 then Some([]) else None
    case JString(s) => if |s| == 0 then Some([]) else None
    case _ => None
  }

  /** The elements a loop over `j[p0][p1]...` visits; `None` when it raises first. */
  function ItemsAt(j: Json, path: seq<string>): (r: Option<seq<Json>>)
    ensures At(j, path).None? ==> r.None?
  {
    var v :- At(j, path);
    Items(v)
  }

  /** `t` occurs in `s` as a contiguous substring (Python's `t in s`). */
  predicate Substring(t: string, s: string)
    decreases |s|
  {
    t <= s || (|s| > 0 && Substring(t, s[1..]))
  }

  /**
   * Python's `'errors' in j` on a decoded reply: a key test on a dict, an
   * element test on a list, a substring test on a string, and a TypeError
   * (`None`) on null, bools and numbers.
   */
  function ErrorsIn(j: Json): (r: Option<bool>)
    ensures j.JObject? ==> r == Some("errors" in j.fields)
    ensures r.None? <==> (j.JNull? || j.JBool? || j.JNum?)
  {
    match j
    case JObject(m) => Some("errors" in m)
    case JArray(xs) => Some(JString("errors") in xs)
    case JString(s) => Some(Substring("errors", s))
    case _ => None
  }

  /** Values Python can use as dictionary keys; lists and dicts raise TypeError. */
  predicate Hashable(j: Json)
  {
    !j.JArray? && !j.JObject?
  }
}

=== FILE: reshape.dfy ===
/**
 * The pure part of the catalogue functions: walking the decoded reply down
 * to a list and reshaping it into the dictionary (or list) handed to the
 * caller. `None` means the reshaping raised (a missing key, a value that is
 * not a dict, an unhashable dictionary key, a timestamp arrow rejects); the
 * whole output is then lost, as the dictionary being built is a local.
 */
module Reshape {
  import opened Wrappers
  import opened JsonModel
  import opened Grouping

  /**
   * `arrow.get(x).to('Europe/Stockholm').format("YYYY-MM-DD HH:mm:ss")`,
   * left uninterpreted; `None` when arrow raises.
   */
  type TimeFormat = Json -> Option<string>

  /** Python's `str()` of a non-string value, as an f-string uses it. */
  type Render = Json -> string

  /** The event log differs between the blocking and the async client. */
  datatype Lineage = Blocking | Cooperative

  const EventLogPath: seq<string> := ["data", "installation", "eventLog", "pagedList"]
  const CommunicationPath: seq<string> := ["data", "installation", "communicationState"]
  const DoorWindowsPath: seq<string> := ["data", "installation", "doorWindows"]
  const SmartplugsPath: seq<string> := ["data", "installation", "smartplugs"]
  const DevicesPath: seq<string> := ["data", "installation", "devices"]
  const UserTrackingsPath: seq<string> := ["data", "installation", "userTrackings"]

  /** The timestamp shown for a user whose location is unknown. */
  const EpochText: string := "1970-01-01 00:00:00"

  /** One event-log line; `user` and `armState` are keys that may be absent. */
  datatype EventPart = EventPart(device: Json, timestamp: string, user: Option<Json>, armState: Option<Json>)

  datatype CommPart = CommPart(result: Json, hardwareCarrierType: Json, mediaType: Json, timestamp: string)

  datatype DoorWindowState = DoorWindowState(state: Json, timestamp: string)

  datatype Tracking = Tracking(currentLocationName: Json, timestamp: string)

  /** The loop over all elements of a list, stopping at the first that raises. */
  function Collect<T>(xs: seq<Json>, parse: Json -> Option<T>): (r: Option<seq<T>>)
    ensures r.Some? <==> forall i :: 0 <= i < |xs| ==> parse(xs[i]).Some?
    ensures r.Some? ==> |r.value| == |xs| && forall i :: 0 <= i < |xs| ==> r.value[i] == parse(xs[i]).value
    decreases |xs|
  {
    if |xs| == 0 then Some([])
    else
      var head :- parse(xs[0]);
      var tail :- Collect(xs[1..], parse);
      assert forall i :: 0 < i < |xs| ==> xs[1..][i - 1] == xs[i];
      Some([head] + tail)
  }

  /**
   * `out = {}; for d in <path>: k, v = ...; out.setdefault(k, []).append(v)`:
   * the output keys are exactly the keys met, every element is placed once,
   * under its key, in input order, and no element is lost or added.
   */
  function GroupedAt<V>(resp: Json, path: seq<string>, parse: Json -> Option<(Json, V)>): (r: Option<map<Json, seq<V>>>)
    ensures r.Some? <==> ItemsAt(resp, path).Some?
                         && forall i :: 0 <= i < |ItemsAt(resp, path).value| ==> parse(ItemsAt(resp, path).value[i]).Some?
    ensures r.Some? ==>
              var items := ItemsAt(resp, path).value;
              var e := Collect(items, parse).value;
              && |e| == |items|
              && (forall i :: 0 <= i < |items| ==> e[i] == parse(items[i]).value)
              && r.value.Keys == (set i | 0 <= i < |items| :: e[i].0)
              && (forall i :: 0 <= i < |items| ==>
                    e[i].0 in r.value && Rank(e, i) < |r.value[e[i].0]| && r.value[e[i].0][Rank(e, i)] == e[i].1)
              && Total(r.value) == |items|
  {
    var items :- ItemsAt(resp, path);
    var e :- Collect(items, parse);
    GroupByPlacementAll(e);
    GroupByTotal(e);
    Some(GroupBy(e))
  }

  /**
   * `out = {}; for d in <path>: out[k] = v`: the output keys are exactly the
   * keys met, and each holds the value of the last element with that key.
   */
  function KeyedAt<V>(resp: Json, path: seq<string>, parse: Json -> Option<(Json, V)>): (r: Option<map<Json, V>>)
    ensures r.Some? <==> ItemsAt(resp, path).Some?
                         && forall i :: 0 <= i < |ItemsAt(resp, path).value| ==> parse(ItemsAt(resp, path).value[i]).Some?
    ensures r.Some? ==>
              var items := ItemsAt(resp, path).value;
              var e := Collect(items, parse).value;
              && |e| == |items|
              && (forall i :: 0 <= i < |items| ==> e[i] == parse(items[i]).value)
              && r.value.Keys == (set i | 0 <= i < |items| :: e[i].0)
              && (forall i :: 0 <= i < |items| && LastWith(e, e[i].0, i) ==> r.value[e[i].0] == e[i].1)
              && (forall k :: k in r.value ==> exists i :: 0 <= i < |items| && LastWith(e, k, i) && r.value[k] == e[i].1)
  {
    var items :- ItemsAt(resp, path);
    var e :- Collect(items, parse);
    KeyByLastAll(e);
    KeyByValues(e);
    Some(KeyBy(e))
  }

  predicate IsArmEvent(category: Json)
  {
    category == JString("ARM") || category == JString("DISARM")
  }

  /**
   * One event-log line keyed by its `eventCategory`. ARM and DISARM lines
   * carry `user` and `armState`; in the async client INTRUSION lines carry
   * `armState` only; every other category carries neither.
   */
  function EventEntry(fmt: TimeFormat, lineage: Lineage, d: Json): (r: Option<(Json, EventPart)>)
    ensures r.Some? ==> Get(d, "eventCategory") == Some(r.value.0) && Hashable(r.value.0)
    ensures r.Some? ==> At(d, ["device", "area"]) == Some(r.value.1.device)
    ensures r.Some? ==> Get(d, "eventTime").Some? && fmt(Get(d, "eventTime").value) == Some(r.value.1.timestamp)
    ensures r.Some? ==> (r.value.1.user.Some? <==> IsArmEvent(r.value.0))
    ensures r.Some? ==> (r.value.1.armState.Some? <==>
                           IsArmEvent(r.value.0) || (lineage == Cooperative && r.value.0 == JString("INTRUSION")))
    ensures r.Some? && r.value.1.user.Some? ==> Get(d, "userName") == r.value.1.user
    ensures r.Some? && r.value.1.armState.Some? ==> Get(d, "armState") == r.value.1.armState
    // a line is read exactly when every key its category needs is there and its time converts
    ensures r.Some? <==>
              && Get(d, "eventCategory").Some? && Hashable(Get(d, "eventCategory").value)
              && At(d, ["device", "area"]).Some?
              && Get(d, "eventTime").Some? && fmt(Get(d, "eventTime").value).Some?
              && (IsArmEvent(Get(d, "eventCategory").value) ==> Get(d, "userName").Some? && Get(d, "armState").Some?)
              && (lineage == Cooperative && Get(d, "eventCategory").value == JString("INTRUSION") ==>
                    Get(d, "armState").Some?)
  {
    var category :- Get(d, "eventCategory");
    if !Hashable(category) then None
    else
      var device :- At(d, ["device", "area"]);
      var time :- Get(d, "eventTime");
      var timestamp :- fmt(time);
      if IsArmEvent(category) then
        var user :- Get(d, "userName");
        var arm :- Get(d, "armState");
        Some((category, EventPart(device, timestamp, Some(user), Some(arm))))
      else if lineage == Cooperative && category == JString("INTRUSION") then
        var arm :- Get(d, "armState");
        Some((category, EventPart(device, timestamp, None, Some(arm))))
      else
        Some((category, EventPart(device, timestamp, None, None)))
  }

  /** `getEventLog`'s loop: the event-log lines grouped by category. */
  function EventLog(resp: Json, fmt: TimeFormat, lineage: Lineage): (r: Option<map<Json, seq<EventPart>>>)
    ensures r.Some? <==> ItemsAt(resp, EventLogPath).Some?
                         && forall i :: 0 <= i < |ItemsAt(resp, EventLogPath).value| ==>
                              EventEntry(fmt, lineage, ItemsAt(resp, EventLogPath).value[i]).Some?
    ensures r.Some? ==>
              var items := ItemsAt(resp, EventLogPath).value;
              var e := Collect(items, d => EventEntry(fmt, lineage, d)).value;
              && |e| == |items|
              && (forall i :: 0 <= i < |items| ==> e[i] == EventEntry(fmt, lineage, items[i]).value)
              && r.value.Keys == (set i | 0 <= i < |items| :: e[i].0)
              && (forall i :: 0 <= i < |items| ==>
                    e[i].0 in r.value && Rank(e, i) < |r.value[e[i].0]| && r.value[e[i].0][Rank(e, i)] == e[i].1)
              && Total(r.value) == |items|
  {
    GroupedAt(resp, EventLogPath, d => EventEntry(fmt, lineage, d))
  }

  /** One communication-test line keyed by its device's area. */
  function CommEntry(fmt: TimeFormat, d: Json): (r: Option<(Json, CommPart)>)
    ensures r.Some? ==> At(d, ["device", "area"]) == Some(r.value.0) && Hashable(r.value.0)
    ensures r.Some? ==> Get(d, "result") == Some(r.value.1.result)
                        && Get(d, "hardwareCarrierType") == Some(r.value.1.hardwareCarrierType)
                        && Get(d, "mediaType") == Some(r.value.1.mediaType)
                        && Get(d, "testDate").Some? && fmt(Get(d, "testDate").value) == Some(r.value.1.timestamp)
    // a line is read exactly when its area is a usable key, the four fields are there and the date converts
    ensures r.Some? <==>
              && At(d, ["device", "area"]).Some? && Hashable(At(d, ["device", "area"]).value)
              && Get(d, "result").Some? && Get(d, "hardwareCarrierType").Some? && Get(d, "mediaType").Some?
              && Get(d, "testDate").Some? && fmt(Get(d, "testDate").value).Some?
  {
    var area :- At(d, ["device", "area"]);
    if !Hashable(area) then None
    else
      var result :- Get(d, "result");
      var carrier :- Get(d, "hardwareCarrierType");
      var media :- Get(d, "mediaType");
      var tested :- Get(d, "testDate");
      var timestamp :- fmt(tested);
      Some((area, CommPart(result, carrier, media, timestamp)))
  }

  /**
   * `getCommunication`'s loop: the output keys are exactly the distinct
   * device areas, and each area lists its own test results in input order.
   */
  function Communication(resp: Json, fmt: TimeFormat): (r: Option<map<Json, seq<CommPart>>>)
    ensures r.Some? <==> ItemsAt(resp, CommunicationPath).Some?
                         && forall i :: 0 <= i < |ItemsAt(resp, CommunicationPath).value| ==>
                              CommEntry(fmt, ItemsAt(resp, CommunicationPath).value[i]).Some?
    ensures r.Some? ==>
              var items := ItemsAt(resp, CommunicationPath).value;
              var e := Collect(items, d => CommEntry(fmt, d)).value;
              && |e| == |items|
              && (forall i :: 0 <= i < |items| ==> e[i] == CommEntry(fmt, items[i]).value)
              && r.value.Keys == (set i | 0 <= i < |items| :: e[i].0)
              && (forall i :: 0 <= i < |items| ==>
                    e[i].0 in r.value && Rank(e, i) < |r.value[e[i].0]| && r.value[e[i].0][Rank(e, i)] == e[i].1)
              && Total(r.value) == |items|
  {
    GroupedAt(resp, CommunicationPath, d => CommEntry(fmt, d))
  }

  /** One door or window sensor keyed by its area. */
  function DoorWindowEntry(fmt: TimeFormat, d: Json): (r: Option<(Json, DoorWindowState)>)
    ensures r.Some? ==> Get(d, "area") == Some(r.value.0) && Hashable(r.value.0)
    ensures r.Some? ==> Get(d, "state") == Some(r.value.1.state)
                        && Get(d, "reportTime").Some? && fmt(Get(d, "reportTime").value) == Some(r.value.1.timestamp)
    // a sensor is read exactly when its area is a usable key, its state is there and its report time converts
    ensures r.Some? <==>
              && Get(d, "area").Some? && Hashable(Get(d, "area").value)
              && Get(d, "state").Some?
              && Get(d, "reportTime").Some? && fmt(Get(d, "reportTime").value).Some?
  {
    var area :- Get(d, "area");
    if !Hashable(area) then None
    else
      var state :- Get(d, "state");
      var reported :- Get(d, "reportTime");
      var timestamp :- fmt(reported);
      Some((area, DoorWindowState(state, timestamp)))
  }

  /** `getDoorWindow`'s loop (blocking client): one state per area, the last sensor listed wins. */
  function DoorWindows(resp: Json, fmt: TimeFormat): (r: Option<map<Json, DoorWindowState>>)
    ensures r.Some? <==> ItemsAt(resp, DoorWindowsPath).Some?
                         && forall i :: 0 <= i < |ItemsAt(resp, DoorWindowsPath).value| ==>
                              DoorWindowEntry(fmt, ItemsAt(resp, DoorWindowsPath).value[i]).Some?
    ensures r.Some? ==>
              var items := ItemsAt(resp, DoorWindowsPath).value;
              var e := Collect(items, d => DoorWindowEntry(fmt, d)).value;
              && |e| == |items|
              && (forall i :: 0 <= i < |items| ==> e[i] == DoorWindowEntry(fmt, items[i]).value)
              && r.value.Keys == (set i | 0 <= i < |items| :: e[i].0)
              && (forall i :: 0 <= i < |items| && LastWith(e, e[i].0, i) ==> r.value[e[i].0] == e[i].1)
              && (forall k :: k in r.value ==> exists i :: 0 <= i < |items| && LastWith(e, k, i) && r.value[k] == e[i].1)
  {
    KeyedAt(resp, DoorWindowsPath, d => DoorWindowEntry(fmt, d))
  }

  /** One smart plug keyed by its device's area. */
  function SmartplugEntry(d: Json): (r: Option<(Json, Json)>)
    ensures r.Some? <==> At(d, ["device", "area"]).Some? && Hashable(At(d, ["device", "area"]).value)
                         && Get(d, "currentState").Some?
    ensures r.Some? ==> r.value == (At(d, ["device", "area"]).value, Get(d, "currentState").value)
  {
    var area :- At(d, ["device", "area"]);
    if !Hashable(area) then None
    else
      var state :- Get(d, "currentState");
      Some((area, state))
  }

  /**
   * `read_smartplug_state`'s loop: the output keys are exactly the distinct
   * areas, and for an area listed twice the last plug's `currentState` wins.
   */
  function SmartplugStates(resp: Json): (r: Option<map<Json, Json>>)
    ensures r.Some? <==> ItemsAt(resp, SmartplugsPath).Some?
                         && forall i :: 0 <= i < |ItemsAt(resp, SmartplugsPath).value| ==>
                              SmartplugEntry(ItemsAt(resp, SmartplugsPath).value[i]).Some?
    ensures r.Some? ==>
              var items := ItemsAt(resp, SmartplugsPath).value;
              var e := Collect(items, SmartplugEntry).value;
              && |e| == |items|
              && (forall i :: 0 <= i < |items| ==>
                    e[i] == (At(items[i], ["device", "area"]).value, Get(items[i], "currentState").value))
              && r.value.Keys == (set i | 0 <= i < |items| :: e[i].0)
              && (forall i :: 0 <= i < |items| && LastWith(e, e[i].0, i) ==> r.value[e[i].0] == e[i].1)
              && (forall k :: k in r.value ==> exists i :: 0 <= i < |items| && LastWith(e, k, i) && r.value[k] == e[i].1)
  {
    KeyedAt(resp, SmartplugsPath, SmartplugEntry)
  }

  /**
   * One tracked user keyed by name. A null `currentLocationName` is shown as
   * the text "None" at the epoch, without reading the location timestamp;
   * otherwise the name is copied through and the timestamp formatted.
   */
  function TrackingEntry(fmt: TimeFormat, d: Json): (r: Option<(Json, Tracking)>)
    ensures r.Some? ==> Get(d, "name") == Some(r.value.0) && Hashable(r.value.0)
    ensures r.Some? ==> Get(d, "currentLocationName").Some?
    ensures r.Some? && Get(d, "currentLocationName") == Some(JNull) ==>
              r.value.1 == Tracking(JString("None"), EpochText)
    ensures r.Some? && Get(d, "currentLocationName") != Some(JNull) ==>
              && r.value.1.currentLocationName == Get(d, "currentLocationName").value
              && Get(d, "currentLocationTimestamp").Some?
              && fmt(Get(d, "currentLocationTimestamp").value) == Some(r.value.1.timestamp)
    // a user is read exactly when the name is a usable key, the location key is there, and a
    // non-null location comes with a timestamp that converts
    ensures r.Some? <==>
              && Get(d, "name").Some? && Hashable(Get(d, "name").value)
              && Get(d, "currentLocationName").Some?
              && (Get(d, "currentLocationName").value != JNull ==>
                    Get(d, "currentLocationTimestamp").Some? && fmt(Get(d, "currentLocationTimestamp").value).Some?)
  {
    var name :- Get(d, "name");
    if !Hashable(name) then None
    else
      var location :- Get(d, "currentLocationName");
      if location != JNull then
        var seen :- Get(d, "currentLocationTimestamp");
        var timestamp :- fmt(seen);
        Some((name, Tracking(location, timestamp)))
      else
        Some((name, Tracking(JString("None"), EpochText)))
  }

  /** `userTracking`'s loop (async client): one entry per user name, the last listed wins. */
  function UserTrackings(resp: Json, fmt: TimeFormat): (r: Option<map<Json, Tracking>>)
    ensures r.Some? <==> ItemsAt(resp, UserTrackingsPath).Some?
                         && forall i :: 0 <= i < |ItemsAt(resp, UserTrackingsPath).value| ==>
                              TrackingEntry(fmt, ItemsAt(resp, UserTrackingsPath).value[i]).Some?
    ensures r.Some? ==>
              var items := ItemsAt(resp, UserTrackingsPath).value;
              var e := Collect(items, d => TrackingEntry(fmt, d)).value;
              && |e| == |items|
              && (forall i :: 0 <= i < |items| ==> e[i] == TrackingEntry(fmt, items[i]).value)
              && r.value.Keys == (set i | 0 <= i < |items| :: e[i].0)
              && (forall i :: 0 <= i < |items| && LastWith(e, e[i].0, i) ==> r.value[e[i].0] == e[i].1)
              && (forall k :: k in r.value ==> exists i :: 0 <= i < |items| && LastWith(e, k, i) && r.value[k] == e[i].1)
  {
    KeyedAt(resp, UserTrackingsPath, d => TrackingEntry(fmt, d))
  }

  /** An f-string field: a string is inserted as is, anything else through `str()`. */
  function Text(render: Render, j: Json): (r: string)
    ensures j.JString? ==> r == j.s
  {
    if j.JString? then j.s else render(j)
  }

  /** One device shown as `f"{area}/{gui.label}"`. */
  function DeviceName(render: Render, d: Json): (r: Option<string>)
    ensures r.Some? <==> At(d, ["gui", "label"]).Some? && Get(d, "area").Some?
    ensures r.Some? ==> r.value == Text(render, Get(d, "area").value) + "/" + Text(render, At(d, ["gui", "label"]).value)
  {
    var caption :- At(d, ["gui", "label"]);
    var area :- Get(d, "area");
    Some(Text(render, area) + "/" + Text(render, caption))
  }

  /**
   * `getDevices`'s loop (async client): one name per device, same length
   * and order as the devices listed, each `area + "/" + gui.label`.
   */
  function DeviceNames(resp: Json, render: Render): (r: Option<seq<string>>)
    ensures r.Some? <==> ItemsAt(resp, DevicesPath).Some?
                         && forall i :: 0 <= i < |ItemsAt(resp, DevicesPath).value| ==>
                              DeviceName(render, ItemsAt(resp, DevicesPath).value[i]).Some?
    ensures r.Some? ==>
              var items := ItemsAt(resp, DevicesPath).value;
              && |r.value| == |items|
              && forall i :: 0 <= i < |items| ==>
                   var area := Get(items[i], "area").value;
                   var caption := At(items[i], ["gui", "label"]).value;
                   && r.value[i] == Text(render, area) + "/" + Text(render, caption)
                   && (area.JString? && caption.JString? ==> r.value[i] == area.s + "/" + caption.s)
  {
    var items :- ItemsAt(resp, DevicesPath);
    Collect(items, d => DeviceName(render, d))
  }

  /**
   * The `{}` returned after a total request failure has no `data` key, so
   * every reshaping loop raises on it: the source does not short-circuit.
   */
  lemma EmptyReplyRaises(fmt: TimeFormat, render: Render, lineage: Lineage)
    ensures EventLog(EmptyObject, fmt, lineage).None?
    ensures Communication(EmptyObject, fmt).None?
    ensures DoorWindows(EmptyObject, fmt).None?
    ensures SmartplugStates(EmptyObject).None?
    ensures UserTrackings(EmptyObject, fmt).None?
    ensures DeviceNames(EmptyObject, render).None?
  {
    assert Get(EmptyObject, "data").None?;
  }
}

=== FILE: sync_client.dfy ===
/**
 * The blocking client (verisureGrafqlAPI.py): the session is reduced to the
 * two attributes the core reads and writes, `username` and `giid`. Each
 * operation is a pure decision procedure over the network's answers that
 * returns the new client, whether an exception escaped, and the calls made.
 */
module SyncClient {
  import opened Wrappers
  import opened JsonModel
  import opened Wire
  import opened Discovery

  /** `username` and `giid` start as Python None. */
  datatype Client = Client(username: Json, giid: Json)

  const Fresh: Client := Client(JNull, JNull)

  /** How a Python call ended: it returned a value, or an exception escaped. */
  datatype Res<T> = Done(value: T) | Threw

  datatype Exec<T> = Exec(client: Client, result: Res<T>, trace: seq<Call>)

  /** `_doRequest`'s answer and the GraphQL calls it made. */
  datatype Sent = Sent(value: Json, trace: seq<Call>)

  /**
   * `_doRequest`: POST the body to the primary GraphQL host; only a reply
   * whose `errors` test is true sends the same body to the secondary host.
   * Any exception, including one from the `errors` test, ends the request.
   * Whatever happens, nothing escapes and the result is the accepted reply
   * or `{}`.
   */
  function DoRequest(net: Net, body: Body): (r: Sent)
    // never more than two attempts, primary first, identical body
    ensures r.trace == [Graphql(0, body)] || r.trace == [Graphql(0, body), Graphql(1, body)]
    // the secondary is contacted exactly when the primary's reply carries `errors`
    ensures |r.trace| == 2 <==> Flagged(net([Graphql(0, body)]))
    // the result is the last reply when it is free of `errors`, otherwise `{}`
    ensures r.value == (if Clean(net(r.trace)) then net(r.trace).payload else EmptyObject)
  {
    var c0 := Graphql(0, body);
    match net([c0])
    case Raised => Sent(EmptyObject, [c0])
    case Reply(p0) =>
      match ErrorsIn(p0)
      case None => Sent(EmptyObject, [c0])
      case Some(false) => Sent(p0, [c0])
      case Some(true) =>
        var c1 := Graphql(1, body);
        match net([c0, c1])
        case Raised => Sent(EmptyObject, [c0, c1])
        case Reply(p1) =>
          if ErrorsIn(p1) == Some(false) then Sent(p1, [c0, c1]) else Sent(EmptyObject, [c0, c1])
  }

  /**
   * `getAllInstallations`: one `_doRequest` for the account's installations,
   * then the loop that leaves the last installation's giid active. Indexing
   * the `{}` of a failed request raises KeyError, which escapes.
   */
  function Discover(c: Client, net: Net): (r: Exec<Json>)
    ensures r.client.username == c.username
    ensures 1 <= |r.trace| <= 2 && r.trace[0] == Graphql(0, FetchAllInstallations(c.username))
    ensures forall i :: 0 <= i < |r.trace| ==> r.trace[i].Graphql?
    ensures PrimaryQueries(r.trace) == 1
    // the calls are those of `_doRequest`: the secondary host only after an `errors` reply from the primary
    ensures r.trace == DoRequest(net, FetchAllInstallations(c.username)).trace
    // a request that failed on every endpoint makes discovery raise and leaves the giid alone
    ensures !Clean(net(r.trace)) ==> r.result.Threw? && r.client == c
    // on success the reply is returned and the last installation listed is active
    ensures r.result.Done? ==>
              && Clean(net(r.trace))
              && r.result.value == net(r.trace).payload
              && ItemsAt(r.result.value, InstallationsPath).Some?
              && var items := ItemsAt(r.result.value, InstallationsPath).value;
                 && (forall i :: 0 <= i < |items| ==> HasGiid(items[i]))
                 && r.client.giid == (if |items| == 0 then c.giid else Get(items[|items| - 1], "giid").value)
    // after a clean reply the loop decides: it returns exactly when it completes, and its giid is kept either way
    ensures Clean(net(r.trace)) ==>
              && r.client.giid == Apply(c.giid, net(r.trace).payload).0
              && (r.result.Done? <==> Apply(c.giid, net(r.trace).payload).1)
  {
    var s := DoRequest(net, FetchAllInstallations(c.username));
    var (giid, completed) := Apply(c.giid, s.value);
    assert PrimaryQueries(s.trace) == 1 by {
      assert PrimaryQueries([]) == 0;
      assert [s.trace[0]][..0] == [];
      if |s.trace| == 2 {
        assert s.trace[..1] == [s.trace[0]];
      }
    }
    if !Clean(net(s.trace)) then
      EmptyReplyRaises(c.giid);
      Exec(c, Threw, s.trace)
    else
      Exec(c.(giid := giid), if completed then Done(s.value) else Threw, s.trace)
  }

  /**
   * One login try against endpoint `e`: POST auth/login, test the reply for
   * `errors`, and on a reply without `errors` run discovery. The result says
   * whether an exception was raised anywhere in that sequence.
   */
  function LoginAttempt(c: Client, net: Net, e: Endpoint): (r: Exec<()>)
    ensures |r.trace| >= 1 && r.trace[0] == Auth(LoginUrl, e)
    ensures forall i :: 1 <= i < |r.trace| ==> r.trace[i].Graphql?
    // discovery runs exactly when the login reply is free of `errors`
    ensures |r.trace| > 1 <==> Clean(net([Auth(LoginUrl, e)]))
    ensures !Clean(net([Auth(LoginUrl, e)])) ==> r.client == c
    // a reply flagged with `errors` is not an exception
    ensures Flagged(net([Auth(LoginUrl, e)])) ==> r == Exec(c, Done(()), [Auth(LoginUrl, e)])
    ensures net([Auth(LoginUrl, e)]).Raised? ==> r == Exec(c, Threw, [Auth(LoginUrl, e)])
    // the `errors` test itself raises TypeError on a null, bool or number reply
    ensures net([Auth(LoginUrl, e)]).Reply? && ErrorsIn(net([Auth(LoginUrl, e)]).payload).None? ==>
              r == Exec(c, Threw, [Auth(LoginUrl, e)])
    // after a clean reply the attempt ends as discovery does: an exception there is the attempt's exception
    ensures Clean(net([Auth(LoginUrl, e)])) ==>
              var d := Discover(c, After(net, [Auth(LoginUrl, e)]));
              && r.client == d.client
              && r.trace == [Auth(LoginUrl, e)] + d.trace
              && (r.result.Threw? <==> d.result.Threw?)
    ensures r.client.username == c.username
    ensures LoginPosts(r.trace) == [e]
    ensures PrimaryQueries(r.trace) == CleanLogins(net, r.trace)
  {
    var a := Auth(LoginUrl, e);
    match net([a])
    case Raised => Exec(c, Threw, [a])
    case Reply(p) =>
      match ErrorsIn(p)
      case None => Exec(c, Threw, [a])
      case Some(true) => Exec(c, Done(()), [a])
      case Some(false) =>
        var d := Discover(c, After(net, [a]));
        LoginPostsAppend([a], d.trace);
        PrimaryQueriesAppend([a], d.trace);
        CleanLoginsAppend(net, [a], d.trace);
        GraphqlOnly(After(net, [a]), d.trace);
        assert [a][..0] == [];
        Exec(d.client, if d.result.Done? then Done(()) else Threw, [a] + d.trace)
  }

  /**
   * Login without MFA: endpoint 1 is tried only when the endpoint-0 attempt
   * raised (which includes discovery raising after a clean reply). Nothing
   * escapes.
   */
  function LoginPlain(c: Client, net: Net): (r: Exec<()>)
    ensures r.result.Done?
    ensures r.client.username == c.username
    ensures LoginPosts(r.trace) == (if LoginAttempt(c, net, 0).result.Threw? then [0, 1] else [0])
    // an `errors` reply from endpoint 0 causes neither fallback nor discovery
    ensures Flagged(net([Auth(LoginUrl, 0)])) ==> r == Exec(c, Done(()), [Auth(LoginUrl, 0)])
    // an endpoint-0 attempt that returned is the login, with the giid its discovery left
    ensures LoginAttempt(c, net, 0).result.Done? ==> r == LoginAttempt(c, net, 0)
    // after an exception the retry starts from the client the first attempt left (a giid discovery
    // overwrote before raising stays) and the login ends with the retry's client
    ensures LoginAttempt(c, net, 0).result.Threw? ==>
              var a0 := LoginAttempt(c, net, 0);
              var a1 := LoginAttempt(a0.client, After(net, a0.trace), 1);
              r.client == a1.client && r.trace == a0.trace + a1.trace
    // discovery runs once for each login reply without `errors`
    ensures PrimaryQueries(r.trace) == CleanLogins(net, r.trace)
  {
    var a0 := LoginAttempt(c, net, 0);
    if a0.result.Done? then a0
    else
      var a1 := LoginAttempt(a0.client, After(net, a0.trace), 1);
      LoginPostsAppend(a0.trace, a1.trace);
      PrimaryQueriesAppend(a0.trace, a1.trace);
      CleanLoginsAppend(net, a0.trace, a1.trace);
      Exec(a1.client, Done(()), a0.trace + a1.trace)
  }

  /**
   * Login with MFA: both login URLs are POSTed in order whatever the first
   * reply says, and nothing is caught, so any exception ends the login and
   * escapes to the caller.
   */
  function LoginMfa(c: Client, net: Net): (r: Exec<()>)
    ensures r.client.username == c.username
    ensures LoginPosts(r.trace) == [0] || LoginPosts(r.trace) == [0, 1]
    ensures r.result.Done? ==> LoginPosts(r.trace) == [0, 1]
    // an `errors` reply from endpoint 0 does not stop the second POST
    ensures Flagged(net([Auth(LoginUrl, 0)])) ==> LoginPosts(r.trace) == [0, 1]
    ensures net([Auth(LoginUrl, 0)]).Raised? ==> r == Exec(c, Threw, [Auth(LoginUrl, 0)])
    // whenever the endpoint-0 attempt returns, whatever its reply said, endpoint 1 is POSTed next
    // and the login ends as that second attempt does
    ensures LoginAttempt(c, net, 0).result.Done? ==>
              var a0 := LoginAttempt(c, net, 0);
              var a1 := LoginAttempt(a0.client, After(net, a0.trace), 1);
              && LoginPosts(r.trace) == [0, 1]
              && r == Exec(a1.client, a1.result, a0.trace + a1.trace)
    // any exception in the endpoint-0 attempt escapes before endpoint 1 is tried
    ensures LoginAttempt(c, net, 0).result.Threw? ==> r == LoginAttempt(c, net, 0) && LoginPosts(r.trace) == [0]
    // discovery runs once for each login reply without `errors`, so at most twice
    ensures PrimaryQueries(r.trace) == CleanLogins(net, r.trace)
  {
    var a0 := LoginAttempt(c, net, 0);
    if a0.result.Threw? then a0
    else
      var a1 := LoginAttempt(a0.client, After(net, a0.trace), 1);
      LoginPostsAppend(a0.trace, a1.trace);
      PrimaryQueriesAppend(a0.trace, a1.trace);
      CleanLoginsAppend(net, a0.trace, a1.trace);
      Exec(a1.client, a1.result, a0.trace + a1.trace)
  }

  /** `login`: records the username, then one of the two policies above. */
  function Login(c: Client, net: Net, mfa: bool, username: Json): (r: Exec<()>)
    ensures r.client.username == username
    ensures !mfa ==> r.result.Done?
    ensures 1 <= |LoginPosts(r.trace)| <= 2 && LoginPosts(r.trace)[0] == 0
    ensures PrimaryQueries(r.trace) == CleanLogins(net, r.trace)
    // `mfa` selects the policy, run with the new username in place
    ensures mfa ==> r == LoginMfa(c.(username := username), net)
    ensures !mfa ==> r == LoginPlain(c.(username := username), net)
  {
    var c1 := c.(username := username);
    if mfa then LoginMfa(c1, net) else LoginPlain(c1, net)
  }

  /**
   * The pattern of `renewToken` and `logout`: call endpoint 0 and call
   * endpoint 1 only if that raised; the reply itself is never inspected and
   * a second exception is caught and printed.
   */
  function FailoverOnRaise(net: Net, f: AuthFamily): (t: seq<Call>)
    ensures t == [Auth(f, 0)] || t == [Auth(f, 0), Auth(f, 1)]
    ensures |t| == 2 <==> net([Auth(f, 0)]).Raised?
  {
    if net([Auth(f, 0)]).Raised? then [Auth(f, 0), Auth(f, 1)] else [Auth(f, 0)]
  }

  /** `renewToken`: POST auth/token with fallback on exception; nothing changes, nothing escapes. */
  function RenewToken(c: Client, net: Net): (r: Exec<()>)
    ensures r.client == c && r.result.Done?
    ensures r.trace == [Auth(TokenUrl, 0)] || r.trace == [Auth(TokenUrl, 0), Auth(TokenUrl, 1)]
    ensures |r.trace| == 2 <==> net([Auth(TokenUrl, 0)]).Raised?
  {
    Exec(c, Done(()), FailoverOnRaise(net, TokenUrl))
  }

  /**
   * `logout`: DELETE auth/delete with fallback on exception. The client's
   * username and giid are left as they were, so a second logout starts from
   * the same state and also returns normally.
   */
  function Logout(c: Client, net: Net): (r: Exec<()>)
    ensures r.client == c && r.result.Done?
    ensures r.trace == [Auth(DeleteUrl, 0)] || r.trace == [Auth(DeleteUrl, 0), Auth(DeleteUrl, 1)]
    ensures |r.trace| == 2 <==> net([Auth(DeleteUrl, 0)]).Raised?
  {
    Exec(c, Done(()), FailoverOnRaise(net, DeleteUrl))
  }
}

=== FILE: wire.dfy ===
/**
 * What the clients send and what comes back. Every network interaction is a
 * `Call`; the network is an oracle that answers a call given every call made
 * before it in the same operation, so any pattern of failures can be fed in.
 */
module Wire {
  import opened Wrappers
  import opened JsonModel

  /** Index into a pair of regional hosts: 0 is m-api01, 1 is m-api02. */
  type Endpoint = i: int | 0 <= i < 2

  /** The authentication URL pairs: auth/login, auth/token (renewal), auth/delete. */
  datatype AuthFamily = LoginUrl | TokenUrl | DeleteUrl

  /**
   * One element of the GraphQL request list. The query document is an opaque
   * string literal in the source and is left out.
   */
  datatype Envelope = Envelope(operationName: string, variables: map<string, Json>)

  /** A request body: the list of envelopes serialised with `json.dumps(list(body))`. */
  type Body = seq<Envelope>

  datatype Call =
    | Auth(family: AuthFamily, endpoint: Endpoint)  // POST or DELETE without a body
    | Graphql(endpoint: Endpoint, body: Body)       // POST to /graphql
    | Session(body: Body)                           // the async handler's doSession
    | BuildHandler                                  // the async APIVerisure.create

  /**
   * `Raised`: the call raised, whether in transport, through the status hook
   * that turns HTTP errors into exceptions, or while decoding the body.
   * `Reply`: the decoded JSON body.
   */
  datatype Outcome = Raised | Reply(payload: Json)

  /** The reply to the last call of a non-empty history. */
  type Net = seq<Call> -> Outcome

  /** The network as seen by a sub-operation that starts after `done`. */
  function After(net: Net, done: seq<Call>): (r: Net)
    ensures forall h :: r(h) == net(done + h)
  {
    (h: seq<Call>) => net(done + h)
  }

  /** A reply without an `errors` entry: the only reply the clients accept. */
  predicate Clean(o: Outcome)
  {
    o.Reply? && ErrorsIn(o.payload) == Some(false)
  }

  /** A reply whose `errors` test came out true. */
  predicate Flagged(o: Outcome)
  {
    o.Reply? && ErrorsIn(o.payload) == Some(true)
  }

  /** The endpoints of the POSTs to auth/login in a trace, in order. */
  function LoginPosts(t: seq<Call>): seq<Endpoint>
    decreases |t|
  {
    if |t| == 0 then []
    else LoginPosts(t[..|t| - 1])
         + (if t[|t| - 1] == Auth(LoginUrl, 0) then [0 as Endpoint]
            else if t[|t| - 1] == Auth(LoginUrl, 1) then [1 as Endpoint]
            else [])
  }

  /** Number of requests to the primary GraphQL host in a trace. */
  function PrimaryQueries(t: seq<Call>): nat
    decreases |t|
  {
    if |t| == 0 then 0
    else PrimaryQueries(t[..|t| - 1]) + (if t[|t| - 1].Graphql? && t[|t| - 1].endpoint == 0 then 1 else 0)
  }

  /** Number of login POSTs in `t` that received a reply without `errors`. */
  function CleanLogins(net: Net, t: seq<Call>): nat
    decreases |t|
  {
    if |t| == 0 then 0
    else CleanLogins(net, t[..|t| - 1]) + (if t[|t| - 1].Auth? && Clean(net(t)) then 1 else 0)
  }

  /** Number of handler constructions in a trace. */
  function Builds(t: seq<Call>): nat
    decreases |t|
  {
    if |t| == 0 then 0
    else Builds(t[..|t| - 1]) + (if t[|t| - 1] == BuildHandler then 1 else 0)
  }

  lemma {:induction false} LoginPostsAppend(a: seq<Call>, b: seq<Call>)
    ensures LoginPosts(a + b) == LoginPosts(a) + LoginPosts(b)
    decreases |b|
  {
    if |b| == 0 {
      assert a + b == a;
    } else {
      assert (a + b)[..|a + b| - 1] == a + b[..|b| - 1];
      LoginPostsAppend(a, b[..|b| - 1]);
    }
  }

  lemma {:induction false} PrimaryQueriesAppend(a: seq<Call>, b: seq<Call>)
    ensures PrimaryQueries(a + b) == PrimaryQueries(a) + PrimaryQueries(b)
    decreases |b|
  {
    if |b| == 0 {
      assert a + b == a;
    } else {
      assert (a + b)[..|a + b| - 1] == a + b[..|b| - 1];
      PrimaryQueriesAppend(a, b[..|b| - 1]);
    }
  }

  lemma {:induction false} BuildsAppend(a: seq<Call>, b: seq<Call>)
    ensures Builds(a + b) == Builds(a) + Builds(b)
    decreases |b|
  {
    if |b| == 0 {
      assert a + b == a;
    } else {
      assert (a + b)[..|a + b| - 1] == a + b[..|b| - 1];
      BuildsAppend(a, b[..|b| - 1]);
    }
  }

  /** Counting clean logins splits at any point, the suffix seen through `After`. */
  lemma {:induction false} CleanLoginsAppend(net: Net, a: seq<Call>, b: seq<Call>)
    ensures CleanLogins(net, a + b) == CleanLogins(net, a) + CleanLogins(After(net, a), b)
    decreases |b|
  {
    if |b| == 0 {
      assert a + b == a;
    } else {
      assert (a + b)[..|a + b| - 1] == a + b[..|b| - 1];
      CleanLoginsAppend(net, a, b[..|b| - 1]);
    }
  }

  /** A trace of GraphQL calls only holds no login POST and no clean login. */
  lemma {:induction false} GraphqlOnly(net: Net, t: seq<Call>)
    requires forall i :: 0 <= i < |t| ==> t[i].Graphql?
    ensures LoginPosts(t) == []
    ensures CleanLogins(net, t) == 0
    decreases |t|
  {
    if |t| > 0 {
      GraphqlOnly(net, t[..|t| - 1]);
    }
  }
}

=== FILE: wrappers.dfy ===
/** Failure-compatible Option, used with `:-` throughout the model. */
module Wrappers {

  /** `None` stands for "this step raised a Python exception". */
  datatype Option<+T> = None | Some(value: T) {

    predicate IsFailure() {
      None?
    }

    function PropagateFailure<U>(): Option<U>
      requires None?
    {
      None
    }

    function Extract(): T
      requires Some?
    {
      value
    }
  }
}
